=== FILE: README.md ===
# Read engine of a hierarchical configuration store

This project models the read engine of the Go configuration library
`config`: the tree the store holds, path resolution, the typed accessors,
`Set`, loading more decoded data, and `ClearAll`. The contracts follow the
assertions of the library's read tests (`read_test.go`). Some cases are not
exercised by any assertion, and the row in "## Model" says so:

- Set's error cases, merging nested maps, and the error flag after a
  successful lookup. There the contract states the library's documented
  behaviour.
- Printing a map or nil, index segments with a sign or leading zeros, and map
  keys that are not strings. The library only says it prints a readable
  joined representation and reads base-10 non-negative indices. For these, the
  model assumes Go's own conventions: fmt's `%v` verb prints values, and
  `strconv.Atoi` reads an index segment. The rows mark these as "assumed".

The modules follow the engine's layers:

- `Values`: the canonical value tree (`Null`, string, integer, bool, `Mapping`
  with string keys, `Sequence`).
  - `Normalize` turns decoded input (typed slices, string-keyed maps, and
    `interface{}`-keyed maps as a YAML decoder produces them) into that tree.
  - `Render` prints a value the way fmt's `%v` verb does.
- `Text`: `strings.Split` and `strings.Join` on a one-character separator.
- `Decimal`: reading a sequence index from a path segment, modelled as
  `strconv.Atoi` (assumed), and the decimal rendering of integers.
- `Order`: Go's byte-wise string order, and the sorted key list `%v` uses for maps.
- `Resolve`: one step (`Step`) and a whole walk (`Walk`) of a split path
  through the tree.
  - A `Mapping` is looked up by key, and a `Sequence` by a base-10 index.
  - A scalar, a missing key, a non-numeric index and an out-of-range index
    each give a distinct `Miss` reason.
- `Store`: the store itself (root mapping, separator, error flag) with its
  operations: `GetValue`, `Exists`, `Get`, `Set` (built on `Put`), `LoadData`
  (a deep `Merge`) and `ClearAll`.
- `Accessors`: `Int`, `Int64`, `Bool`, `String`, `Strings`, `Ints`, `IntMap`
  and `StringMap`, each with Go's optional variadic default where the library
  has one.
- `Scenarios`: the test functions replayed on the model.
  - Each stage of the tests is a predicate on the store: after the first load,
    after the second load, after `Set`, and after loading decoded data.
  - One lemma shows that each stage's operation leads from one predicate to the
    next.
  - Every assertion of that stage is a lemma about any store satisfying its
    predicate.

The tests' fixture `jsonStr` is defined outside `read_test.go`. The model
rebuilds it from what the tests assert of it: `name`, `debug`, `age`, `map1`
and `arr1`. The tests read nothing under `map1.key`, so the stages state of
`map1` only what the tests assert: a `key` entry, "val1" under `key1`, and no
`notExist` entry. The concrete fixture puts "val" under `key`.

`String`, `Strings` and `StringMap` print every value with `%v`. Every value
therefore coerces to a string, and these accessors never drop an element:
`StringMap("yMap")` reads `"v0"` at `k0` although `k1` holds a number (lines
223-226). Only `Ints` and `IntMap` can meet an element that does not coerce,
and they are all-or-nothing.

## Model

| member | source | states |
|---|---|---|
| Values.Normalize | read_test.go:155-180 | Each decoded shape becomes its canonical counterpart: typed slices become Sequences element by element in order, and string-keyed maps become Mappings with the same keys and each value normalised |
| Values.LastWith | read_test.go:161-178 | Some value exactly when some pair's key prints as the text, and then the value of a pair whose key prints as the text |
| Values.NormalizePairs | read_test.go:161-178 | An interface-keyed map becomes a string-keyed Mapping: a key text is present exactly when some pair's key prints as it, and it holds the normalised value of the last such pair |
| Values.LastWithIsLast | read_test.go:161-178 | When keys collide, the pair with the highest index whose key prints as the text wins |
| Values.KeyText | read_test.go:161-168 | A string key keeps its text; a number key becomes its canonical decimal text, which Atoi reads back as that number; a bool key becomes `true` or `false` (number keys assumed: fmt's `%v`; the tests use only string keys) |
| Values.NormalizeEmbed | read_test.go:98-102 | A tree that is already canonical is a fixed point of normalisation, so loading decoded JSON stores exactly the decoded tree |
| Values.NormalizeEmbedMap | read_test.go:98-102 | The same for a whole top-level document |
| Values.Render | read_test.go:316-317 | `%v` keeps a string as it is, prints a Sequence between `[` and `]`, and prints a Mapping between `map[` and `]` (Mappings and nil assumed: fmt's `%v`; the tests print none) |
| Values.RenderMapping | read_test.go:316-317 | A Mapping prints between `map[` and `]`, and an empty one as `map[]` (assumed: fmt's `%v`; the tests print no map) |
| Values.RenderTwoEntries | read_test.go:316-317 | A two-entry map prints the smaller key first, `map[a:x b:y]`, whichever order the entries were inserted in (assumed: fmt's `%v`) |
| Order.SortedKeys | read_test.go:316-317 | The keys of a set, each exactly once and in strictly increasing byte order, the order `%v` prints map entries in (assumed: fmt's `%v`) |
| Values.RenderItems | read_test.go:92-93 | One rendering per element, in order, each the element's own `%v` |
| Values.RenderStringsReadBack | read_test.go:316-317 | The elements of a Sequence of space-free strings are recovered by splitting its rendering between the brackets on spaces, so the rendering is the space-join of the elements |
| Text.Split | read_test.go:67-68 | Splitting always gives at least one piece, and no piece contains the separator |
| Text.JoinSplit | read_test.go:67-68 | Joining the pieces of a split gives back the original path |
| Text.SplitJoin | read_test.go:67-68 | Splitting a join of separator-free pieces gives back the pieces |
| Text.SplitTwo | read_test.go:32-35 | A path `a.b` with separator-free `a` and `b` splits into exactly `[a, b]` |
| Decimal.Atoi | read_test.go:42-50 | A segment reads as an index exactly when it is an optional sign followed by one or more digits; without a minus sign the index is non-negative (the sign and leading zeros assumed: `strconv.Atoi`; the tests use only unsigned indices) |
| Decimal.AtoiOfDecimal | read_test.go:68 | Reading back the decimal text of any integer gives that integer, and the text is canonical |
| Decimal.IntToDecimal | read_test.go:183-187 | The decimal text of an integer is canonical; its digits spell the magnitude, after a `-` exactly when the integer is negative |
| Decimal.DecimalOfAtoi | read_test.go:42-45 | Conversely, a canonical decimal text is the rendering of the number Atoi reads from it |
| Resolve.Step | read_test.go:32-50 | One step finds a Mapping entry exactly when the key is present, and a Sequence element exactly when the segment reads as an in-range index; a non-numeric index is BadIndex, and a scalar is NotContainer |
| Resolve.Walk | read_test.go:32-50 | The empty segment list walks to the value itself, and a failed walk never reports an empty path |
| Resolve.WalkFoundIffEveryStep | read_test.go:32-50 | A walk finds a value exactly when, from every prefix's value, the next segment's step finds one |
| Resolve.WalkAppend | read_test.go:37-40 | Walking `p + q` walks `p`, then `q` from where `p` ended; a failure inside `p` stands |
| Resolve.MissingExtends | read_test.go:37-40 | A missing prefix makes every extension missing for the same reason |
| Resolve.FoundPrefixes | read_test.go:67-68 | A found path was found at every prefix along the way |
| Resolve.IndexByDecimal | read_test.go:95-96 | Every index of a Sequence is reached through its decimal text |
| Resolve.ScalarBlocks | read_test.go:24-25 | Nothing can be found below a scalar or null |
| Store.IsEmpty | read_test.go:65 | An empty store finds no path in either mode; a non-empty one whose keys are all non-empty finds some path as a literal top-level key |
| Store.Exists | read_test.go:66-72 | The empty path never exists; a literal lookup exists exactly when the path is a top-level key; a path free of the separator exists alike in both modes |
| Store.Get | read_test.go:75-83 | The value the dotted lookup finds, and nil when it finds none |
| Store.GetValue | read_test.go:19-30 | The empty path is never found; with dotted traversal off, a path is found exactly when it is a top-level key, and reads that key's value |
| Store.AfterGetValue | read_test.go:24-26 | A failed lookup sets the error flag; the data never changes; a successful one leaves the flag alone (documented behaviour, the tests show only the failure) |
| Store.PlainKeyBothModes | read_test.go:66-72 | A path without the separator reads the same with dotted traversal on or off |
| Store.NonDottedNeedsLiteralKey | read_test.go:28-30 | With dotted traversal off, a path holding the separator is not found when no top-level key holds the separator |
| Store.DottedConcat | read_test.go:67-68 | Looking up `a.b` is looking up `a`, then walking `b` from there |
| Store.Put | read_test.go:139-147 | A successful placement makes the path walk to the placed value, and adds only the path's first key at the top level |
| Store.PutFailsIffBlocked | read_test.go:139-140 | Placing fails exactly when some proper prefix of the path holds something other than a Mapping (the failure is documented behaviour, the test sets only successfully) |
| Store.FreshPutSucceeds | read_test.go:139-140 | Placement below a new, empty Mapping always succeeds |
| Store.PutReadBack | read_test.go:145-147 | After a placement, every path below the placed key walks inside the placed value |
| Store.PutLeavesOthers | read_test.go:149-151 | A path that parts from the placed path before its end reads exactly as before |
| Store.Set | read_test.go:139-140 | An empty path is InvalidKey; any error leaves the data unchanged and sets the error flag; success keeps the flag and reads back the normalised value at the path (the error cases are documented behaviour, the test sets only successfully) |
| Store.SetBlockedIff | read_test.go:139-140 | Set reports PathBlocked exactly when a proper prefix of the path holds a non-Mapping (documented behaviour, the test sets only successfully) |
| Store.SetReadBack | read_test.go:145-147 | After a successful Set of `p`, the path `p.rest` walks `rest` inside the normalised value |
| Store.Merge | read_test.go:98-102 | The merged keys are the union; keys only in the old tree keep their values; new non-Mapping values replace old ones; two Mappings under one key merge with the union of their keys (nested merges are documented behaviour, the test merges only top-level keys) |
| Store.LoadData | read_test.go:155-181 | Loading keeps the separator and the error flag, and the top-level keys become the union of old and loaded keys |
| Store.MergeDisjoint | read_test.go:98-102 | Merging trees with no top-level key in common is their plain union |
| Store.LoadFreshKey | read_test.go:155-181 | A key only the loaded data holds reads back as that data, normalised |
| Store.MergeEmpty | read_test.go:98-102 | Merging in nothing changes nothing |
| Store.MergeIntoEmpty | read_test.go:12-13 | Loading into a cleared store stores exactly the loaded tree |
| Store.MergeIdempotent | read_test.go:98-102 | Loading the same tree again changes nothing, at any depth (documented behaviour) |
| Store.MergeKeepsUntouched | read_test.go:150-151 | A path whose top key the new data lacks reads as before the merge |
| Store.MergeLeafWins | read_test.go:98-102 | A non-Mapping value the new data holds at a path is what the merged tree holds there (at depth: documented behaviour) |
| Store.MergeKeepsOld | read_test.go:150-151 | A path the old tree holds and the new one lacks reads as before, at any depth, as long as every prefix the new tree holds is a Mapping in both trees |
| Store.LoadKeepsOld | read_test.go:150-151 | The same for loading: such a path reads the same value after LoadData |
| Store.LoadKeepsEarlier | read_test.go:150-151 | After loading more data, every path whose first segment the new data does not mention reads as before |
| Store.ClearAll | read_test.go:52 | Afterwards the store is empty, the error flag is clear, and no path exists in either mode |
| Store.ClearAllIdempotent | read_test.go:52 | Clearing twice is clearing once |
| Accessors.IntsOf | read_test.go:112-113 | All the numbers of a list, in order, exactly when every element is a number; otherwise none |
| Accessors.IntMapOf | read_test.go:127-128 | All the numbers of a map, under the same keys, exactly when every value is a number; otherwise none |
| Accessors.Int | read_test.go:239-252 | Missing path: the default, else 0; a number: that number; any other kind: 0 |
| Accessors.Int64 | read_test.go:263-278 | The same reading as Int |
| Accessors.Bool | read_test.go:343-359 | Missing path: the default, else false; found: true exactly when the value is boolean true |
| Accessors.String | read_test.go:316-329 | Missing path: the default, else ""; found: the `%v` rendering of the value, so a string is that string and a Sequence is bracketed |
| Accessors.Strings | read_test.go:86-93 | Empty unless the path holds a Sequence; otherwise one `%v` rendering per element, in order |
| Accessors.Ints | read_test.go:105-113 | Empty, or as long as the Sequence at the path; the numbers in order when every element is a number; empty when any is not |
| Accessors.IntMap | read_test.go:122-128 | Empty, or the keys of the Mapping at the path; every number under its key when all values are numbers; empty when any is not |
| Accessors.StringMap | read_test.go:150-151 | Empty unless the path holds a Mapping; otherwise the same keys, each value printed with `%v` |
| Accessors.DefaultOnlyWhenMissing | read_test.go:269-270 | On a found path every scalar accessor returns the same whatever default is passed |
| Accessors.MissingPathGivesDefaults | read_test.go:319-323 | On a missing path every scalar accessor returns its default or zero, and every collection accessor returns an empty collection |
| Accessors.IntsPrintLikeString | read_test.go:183-184 | A whole Ints reading printed with `%v` (decimal numbers, space-separated, in brackets) is what String prints for the Sequence it came from |
| Accessors.StringsOfStrings | read_test.go:92-93 | Strings on a Sequence of strings reads back those strings |
| Accessors.IndexedString | read_test.go:92-96 | String at `p.i` is the i-th element that Strings(p) returns |
| Scenarios.LoadingTheFixture | read_test.go:12-13 | Clearing the store, then loading the fixture, gives exactly the fixture with the default separator and no error |
| Scenarios.LoadedHoldsFixture | read_test.go:12-13 | That store holds the five fixture values, and none of the keys the tests probe as absent or the later stages add |
| Scenarios.EmptyPathNotFound | read_test.go:19-20 | GetValue("") is not found, and Exists("") is false |
| Scenarios.AbsentTopKey | read_test.go:22-23 | `notExist` is not found |
| Scenarios.BelowScalar | read_test.go:24-26 | `name.sub` is not found because `name` is a scalar, and the error flag is set |
| Scenarios.NonDottedMap1Key | read_test.go:28-30 | `map1.key` is not a top-level key, so it is not found with dotted traversal off |
| Scenarios.AbsentSecondLevelKey | read_test.go:32-35 | `map1.notExist` is not found and reads nil |
| Scenarios.AbsentPrefix | read_test.go:37-40 | `notExist.sub` is not found and reads nil |
| Scenarios.IndexPastEnd | read_test.go:42-45 | `arr1.100` is out of range and reads nil |
| Scenarios.IndexNotANumber | read_test.go:47-50 | `arr1.notExist` is no index and reads nil |
| Scenarios.FixtureNotEmpty | read_test.go:65-66 | The loaded store is not empty, and `age` exists |
| Scenarios.ExistsNestedKey | read_test.go:67 | `map1.key` exists |
| Scenarios.ExistsIndex | read_test.go:68-69 | `arr1.1` exists dotted, but not as a literal top-level key |
| Scenarios.NotExistsDashed | read_test.go:70-72 | Neither `not-exist.sub` nor `not-exist` exists |
| Scenarios.GetAgeAndName | read_test.go:75-83 | Get reads 123 at `age` and "app" at `name` |
| Scenarios.GetAbsent | read_test.go:79-80 | Get reads nil at a missing key |
| Scenarios.StringsOfAbsent | read_test.go:86-87 | Strings at a missing key is empty |
| Scenarios.StringsOfMapping | read_test.go:89-90 | Strings on a Mapping is empty |
| Scenarios.StringsOfArr1 | read_test.go:92-93 | Strings at `arr1` is ["val", "val1", "val2"] |
| Scenarios.StringOfIndex | read_test.go:95-96 | String at `arr1.1` is "val1" |
| Scenarios.IntOfAge | read_test.go:239-240 | Int and Int64 at `age` are 123 |
| Scenarios.Int64OfAgeWithDefault | read_test.go:269-270 | Int64 at `age` ignores the default 34 |
| Scenarios.IntOfName | read_test.go:242-243 | Int and Int64 on a string are 0 |
| Scenarios.IntOfAbsent | read_test.go:245-252 | Int and Int64 at a missing key give the default 34, or 0 without one |
| Scenarios.StringOfArr1 | read_test.go:316-317 | String at `arr1` is "[val val1 val2]" |
| Scenarios.StringOfAbsent | read_test.go:319-323 | String at a missing key is "" or the default "defVal" |
| Scenarios.StringOfName | read_test.go:326-327 | String at `name` is "app" |
| Scenarios.BoolOfDebug | read_test.go:340-350 | Get at `debug` is true, and Bool is true with or without the default false |
| Scenarios.BoolOfAge | read_test.go:346-347 | Bool on a number is false |
| Scenarios.BoolOfAbsent | read_test.go:352-359 | Bool at a missing key gives the default false, or false without one |
| Scenarios.ClearAllAfterwards | read_test.go:52 | After ClearAll the store is empty and no error is set |
| Scenarios.SecondLoad | read_test.go:98-102 | Loading the second document keeps all five fixture values and adds `iArr` and `iMap` |
| Scenarios.IntsOfName | read_test.go:105-107 | Ints and IntMap on a string are empty, and `name.1` does not exist |
| Scenarios.IntsOfAbsent | read_test.go:109-110 | Ints and IntMap at a missing key are empty |
| Scenarios.IntsOfIArr | read_test.go:112-113 | Ints at `iArr` is [12, 34, 36] |
| Scenarios.IntOfIArrIndex | read_test.go:115-116 | Int at `iArr.1` is 34 |
| Scenarios.IntOfIArrPastEnd | read_test.go:118-119 | Int at `iArr.100` is 0 |
| Scenarios.IntMapOfIMap | read_test.go:127-128 | IntMap at `iMap` is {k1: 12, k2: 34, k3: 36} |
| Scenarios.IntOfIMapKey | read_test.go:130-132 | Int at `iMap.k2` is 34, and the path exists |
| Scenarios.IntOfIMapAbsentKey | read_test.go:134-136 | Int at `iMap.notExist` is 0, and the path does not exist |
| Scenarios.SetIntMap0 | read_test.go:139-140 | Set of `intMap0` to {a: 1, b: 2} succeeds and adds that Mapping beside everything loaded before |
| Scenarios.IntMapAfterSet | read_test.go:142-144 | IntMap at `intMap0` is {a: 1, b: 2} |
| Scenarios.SetValueBelow | read_test.go:145 | Get at `intMap0.b` is 2 |
| Scenarios.SetKeyBelowExists | read_test.go:146 | `intMap0.a` exists |
| Scenarios.SetKeyBelowAbsent | read_test.go:147 | `intMap0.c` does not exist |
| Scenarios.StringMapAfterSet | read_test.go:150-151 | StringMap at `map1` still holds "val1" under `key1` |
| Scenarios.KeyedPair | read_test.go:175-178 | An interface-keyed map with two string keys normalises to the plain map of those keys |
| Scenarios.KeyedTriple | read_test.go:165-169 | The same with three keys |
| Scenarios.PlainTriple | read_test.go:170-174 | A string-keyed map of three keys normalises value by value |
| Scenarios.DecodedLoad | read_test.go:155-181 | Loading the decoded data after Set adds the eight keys the test reads, each normalised |
| Scenarios.IntsOfNewIArr | read_test.go:183-187 | Ints at `newIArr` is [2, 3], and at `newIArr1` it is [12, 23] |
| Scenarios.IntsOfMixedList | read_test.go:188-189 | Ints on a list holding a string is empty |
| Scenarios.IntOfNewIArrIndex | read_test.go:191-193 | `newIArr.1` exists, and Int there is 3 |
| Scenarios.IntOfNewIArrPastEnd | read_test.go:195-197 | `newIArr.200` does not exist, and Int there is 0 |
| Scenarios.IntMapOfStringHolders | read_test.go:200-204 | IntMap is empty on both maps that hold a string, whatever their key type |
| Scenarios.IntMapOfYMap2 | read_test.go:206-207 | IntMap at `yMap2` is {k: 2, k1: 23} |
| Scenarios.StringOfNewSArrIndex | read_test.go:209-211 | `newSArr.1` exists, and String there is "b" |
| Scenarios.StringOfNewSArrPastEnd | read_test.go:213-215 | `newSArr.100` does not exist, and String there is "" |
| Scenarios.StringMapBelowYMapAbsent | read_test.go:220-221 | StringMap at `yMap.notExist` is empty |
| Scenarios.YMapKeyFound | read_test.go:224 | `yMap.k0` exists, through a normalised interface-keyed map |
| Scenarios.YMapKeyAbsent | read_test.go:225 | `yMap.k100` does not exist |
| Scenarios.StringMapOfYMap | read_test.go:223-226 | StringMap at `yMap` holds "v0" under `k0` |
| Scenarios.IntsBelowYMap1 | read_test.go:228-229 | Ints at `yMap1.k2` is [23, 45] |

## Left out

- JSON decoding (`LoadStrings`, `LoadSources`) is not modelled. The model starts
  from the decoded tree: `Scenarios.LoadingTheFixture` and `Scenarios.SecondLoad`
  take the decoded document as a `Values.Value` map.
- Floating point is left out. JSON numbers decode as `float64` in the library
  (lines 76-77), and the model's numbers are integers. The `Float` accessor and
  `TestFloat` (lines 283-308) are left out with them.
- `MapStruct` (lines 364-412) is left out. It binds to Go structs by reflection,
  which has no counterpart in the value tree.
- The process-wide default instance (`Default()`) and the free functions that
  forward to it are left out. Every operation takes the store explicitly.
- `StringMap` on a `map[string]int` (`invalidMap`, lines 160 and 217-218) is left
  out. The library returns nil there because of Go's static map type, not the
  values, and normalisation erases that type. The decoded data in
  `Scenarios.Decoded` therefore omits `invalidMap`.
- The error slot is a boolean flag. The text of the error (line 26) is not modelled.
- Accessors.Int64: integers are unbounded, so no 64-bit (or platform `int`)
  wrap-around or overflow is modelled.
- Accessors.Int: a string that holds digits reads as 0, like any other string.
  Numeric-string conversion is not visible in the tests.
- Accessors.Int64: a string that holds digits reads as 0, as in `Int`.
- Accessors.Ints: a string that holds digits is "not a number", so a list
  holding one reads as empty.
- Accessors.IntMap: a string that holds digits is "not a number", so a map
  holding one reads as empty.
- Accessors.Strings: takes no default. The collection accessors are never
  called with one in the tests.
- Values.Normalize: it has no case for inputs that are not data (structs,
  channels, functions). Such inputs are not representable in `Values.Raw`, so
  nothing checks how the library rejects them.
- Decimal.Atoi: the model reads an index segment as `strconv.Atoi` does, so
  `arr1.+1` and `arr1.01` both reach the element at index 1. The tests use only
  unsigned indices without leading zeros, so this reading is assumed, not
  exercised.
- Values.KeyText: a number or bool key becomes its `%v` text. The tests'
  interface-keyed maps have only string keys, so this is assumed, not
  exercised.
- Store.NonDottedNeedsLiteralKey: it assumes no top-level key holds the
  separator. A top-level key that does hold it, such as `a.b` loaded from
  decoded data, is found by a lookup with dotted traversal off. A dotted
  lookup splits the path and never reaches that key: `Get("a.b")` and every
  accessor read `b` below `a` instead, and find nothing when there is none.
- Values.NormalizePairs: which of two colliding interface keys wins depends on
  Go's random map iteration order. The model takes the pair order as an input
  and lets the later pair win.
- The `yArr` entry of the decoded data (line 179) is loaded but never read by
  the tests, so no lemma reads it.

=== FILE: accessors.dfy ===
/**
 * The coercion layer: typed accessors over a path. A missing path gives the
 * caller's default (the first optional argument) or the type's zero value; a
 * found value of the wrong kind gives the zero value, whatever the default.
 * Int and IntMap-style collections are all-or-nothing; String-style readers
 * print every value the way fmt's %v does.
 */
module Accessors {
  import opened Options
  import opened Values
  import opened Resolve
  import opened Store

  /** Go's variadic default: the first one given, else the zero value. */
  function DefaultOr<T>(defaults: seq<T>, zero: T): (r: T)
    ensures |defaults| == 0 ==> r == zero
    ensures |defaults| > 0 ==> r == defaults[0]
  {
    if |defaults| > 0 then defaults[0] else zero
  }

  // ------------------------------------------------------------- value level

  /** The integer a value coerces to: its number, or zero for any other kind. */
  function IntOf(v: Value): int
  {
    if v.Num? then v.n else 0
  }

  /** A bool coerces only from a boolean value; anything else is false. */
  function BoolOf(v: Value): bool
  {
    v.Bool? && v.b
  }

  /** All the numbers of `xs`, in order, or nothing if any element is not a number. */
  function IntsOf(xs: seq<Value>): (r: Option<seq<int>>)
    ensures r.Some? <==> forall i :: 0 <= i < |xs| ==> xs[i].Num?
    ensures r.Some? ==> |r.value| == |xs| && forall i :: 0 <= i < |xs| ==> xs[i] == Num(r.value[i])
    decreases |xs|
  {
    if |xs| == 0 then Some([])
    else
      match IntsOf(xs[1..])
      case None => None
      case Some(tail) =>
        if xs[0].Num? then
          var r := [xs[0].n] + tail;
          assert forall i :: 1 <= i < |xs| ==> xs[i] == xs[1..][i - 1];
          Some(r)
        else None
  }

  /** The numbers of a Mapping under the same keys, or nothing if any value is not a number. */
  function IntMapOf(m: map<string, Value>): (r: Option<map<string, int>>)
    ensures r.Some? <==> forall k :: k in m ==> m[k].Num?
    ensures r.Some? ==> r.value.Keys == m.Keys && forall k :: k in m ==> m[k] == Num(r.value[k])
  {
    if forall k :: k in m ==> m[k].Num? then Some(map k | k in m :: m[k].n) else None
  }

  // ------------------------------------------------------------- path level

  /** Int(path, default...): the number at `path`. */
  function Int(c: Config, path: string, defaults: seq<int>): (r: int)
    ensures !Exists(c, path, true) ==> r == DefaultOr(defaults, 0)
    ensures Exists(c, path, true) && Get(c, path).Num? ==> r == Get(c, path).n
    ensures Exists(c, path, true) && !Get(c, path).Num? ==> r == 0
  {
    match GetValue(c, path, true)
    case Found(v) => IntOf(v)
    case Missing(_) => DefaultOr(defaults, 0)
  }

  /** Int64(path, default...): the same reading as Int; integers are unbounded here. */
  function Int64(c: Config, path: string, defaults: seq<int>): (r: int)
    ensures !Exists(c, path, true) ==> r == DefaultOr(defaults, 0)
    ensures Exists(c, path, true) && Get(c, path).Num? ==> r == Get(c, path).n
    ensures Exists(c, path, true) && !Get(c, path).Num? ==> r == 0
  {
    Int(c, path, defaults)
  }

  /** Bool(path, default...): true only for a boolean true at `path`. */
  function Bool(c: Config, path: string, defaults: seq<bool>): (r: bool)
    ensures !Exists(c, path, true) ==> r == DefaultOr(defaults, false)
    ensures Exists(c, path, true) ==> (r <==> Get(c, path) == Value.Bool(true))
  {
    match GetValue(c, path, true)
    case Found(v) => BoolOf(v)
    case Missing(_) => DefaultOr(defaults, false)
  }

  /** String(path, default...): the %v rendering of whatever is at `path`. */
  function String(c: Config, path: string, defaults: seq<string>): (r: string)
    ensures !Exists(c, path, true) ==> r == DefaultOr(defaults, "")
    ensures Exists(c, path, true) ==> r == Render(Get(c, path))
    ensures Exists(c, path, true) && Get(c, path).Str? ==> r == Get(c, path).s
    ensures Exists(c, path, true) && Get(c, path).Sequence? ==> |r| >= 2 && r[0] == '[' && r[|r| - 1] == ']'
  {
    match GetValue(c, path, true)
    case Found(v) => Render(v)
    case Missing(_) => DefaultOr(defaults, "")
  }

  /** Strings(path): every element of the Sequence at `path`, printed with %v;
      empty when the path is missing or holds anything but a Sequence. */
  function Strings(c: Config, path: string): (r: seq<string>)
    ensures !(Exists(c, path, true) && Get(c, path).Sequence?) ==> r == []
    ensures Exists(c, path, true) && Get(c, path).Sequence? ==>
      |r| == |Get(c, path).items| &&
      forall i :: 0 <= i < |r| ==> r[i] == Render(Get(c, path).items[i])
  {
    match GetValue(c, path, true)
    case Found(Sequence(items)) => RenderItems(items, Sequence(items))
    case _ => []
  }

  /** Ints(path): the Sequence at `path` as integers, all of them or none. */
  function Ints(c: Config, path: string): (r: seq<int>)
    ensures r == [] || (Get(c, path).Sequence? && |r| == |Get(c, path).items|)
    ensures Get(c, path).Sequence? && (forall i :: 0 <= i < |Get(c, path).items| ==> Get(c, path).items[i].Num?) ==>
      |r| == |Get(c, path).items| &&
      forall i :: 0 <= i < |r| ==> Get(c, path).items[i] == Num(r[i])
    ensures Get(c, path).Sequence? && (exists i :: 0 <= i < |Get(c, path).items| && !Get(c, path).items[i].Num?) ==>
      r == []
  {
    match GetValue(c, path, true)
    case Found(Sequence(items)) => IntsOf(items).GetOr([])
    case _ => []
  }

  /** IntMap(path): the Mapping at `path` as integers, all of them or none. */
  function IntMap(c: Config, path: string): (r: map<string, int>)
    ensures r == map[] || (Get(c, path).Mapping? && r.Keys == Get(c, path).entries.Keys)
    ensures Get(c, path).Mapping? && (forall k :: k in Get(c, path).entries ==> Get(c, path).entries[k].Num?) ==>
      r.Keys == Get(c, path).entries.Keys &&
      forall k :: k in r ==> Get(c, path).entries[k] == Num(r[k])
    ensures Get(c, path).Mapping? && (exists k :: k in Get(c, path).entries && !Get(c, path).entries[k].Num?) ==>
      r == map[]
  {
    match GetValue(c, path, true)
    case Found(Mapping(entries)) => IntMapOf(entries).GetOr(map[])
    case _ => map[]
  }

  /** StringMap(path): every value of the Mapping at `path`, printed with %v;
      empty when the path is missing or holds anything but a Mapping. */
  function StringMap(c: Config, path: string): (r: map<string, string>)
    ensures !Get(c, path).Mapping? ==> r == map[]
    ensures Get(c, path).Mapping? ==>
      r.Keys == Get(c, path).entries.Keys &&
      forall k :: k in r ==> r[k] == Render(Get(c, path).entries[k])
  {
    match GetValue(c, path, true)
    case Found(Mapping(entries)) => map k | k in entries :: Render(entries[k])
    case _ => map[]
  }

  // ------------------------------------------------------------- properties

  /** A found path ignores the default entirely, for every scalar accessor. */
  lemma DefaultOnlyWhenMissing(c: Config, path: string,
                               di: seq<int>, di': seq<int>,
                               db: seq<bool>, db': seq<bool>,
                               ds: seq<string>, ds': seq<string>)
    requires Exists(c, path, true)
    ensures Int(c, path, di) == Int(c, path, di')
    ensures Int64(c, path, di) == Int64(c, path, di')
    ensures Bool(c, path, db) == Bool(c, path, db')
    ensures String(c, path, ds) == String(c, path, ds')
  {
  }

  /** On a missing path every accessor gives its default, or its zero or empty value. */
  lemma MissingPathGivesDefaults(c: Config, path: string, di: seq<int>, db: seq<bool>, ds: seq<string>)
    requires !Exists(c, path, true)
    ensures Int(c, path, di) == DefaultOr(di, 0) && Int64(c, path, di) == DefaultOr(di, 0)
    ensures Bool(c, path, db) == DefaultOr(db, false)
    ensures String(c, path, ds) == DefaultOr(ds, "")
    ensures Strings(c, path) == [] && Ints(c, path) == []
    ensures IntMap(c, path) == map[] && StringMap(c, path) == map[]
  {
  }

  /** A whole reading of Ints prints with %v just as String prints the
      Sequence it came from: the numbers in decimal, space-separated, in brackets. */
  lemma IntsPrintLikeString(c: Config, path: string)
    requires Ints(c, path) != []
    ensures String(c, path, []) ==
      "[" + Text.Join(seq(|Ints(c, path)|, i requires 0 <= i < |Ints(c, path)| => Decimal.IntToDecimal(Ints(c, path)[i])), ' ') + "]"
  {
    var r := Ints(c, path);
    var items := Get(c, path).items;
    assert Exists(c, path, true);
    var printed := seq(|Ints(c, path)|, i requires 0 <= i < |Ints(c, path)| => Decimal.IntToDecimal(Ints(c, path)[i]));
    assert forall i :: 0 <= i < |items| ==> items[i].Num?;
    assert RenderItems(items, Sequence(items)) == printed;
    assert Get(c, path) == Sequence(items);
    assert String(c, path, []) == RenderSequence(items, Sequence(items));
    assert RenderSequence(items, Sequence(items)) == Bracket("[", Text.Join(printed, ' '));
    assert Bracket("[", Text.Join(printed, ' ')) == "[" + Text.Join(printed, ' ') + "]";
  }

  /** Strings read back a Sequence of strings unchanged. */
  lemma StringsOfStrings(c: Config, path: string)
    requires Get(c, path).Sequence?
    requires forall i :: 0 <= i < |Get(c, path).items| ==> Get(c, path).items[i].Str?
    ensures |Strings(c, path)| == |Get(c, path).items|
    ensures forall i :: 0 <= i < |Strings(c, path)| ==> Value.Str(Strings(c, path)[i]) == Get(c, path).items[i]
  {
  }

  /** Indexing the Sequence reads the same element String prints inside the brackets. */
  lemma IndexedString(c: Config, path: string, i: int)
    requires path != ""
    requires Get(c, path).Sequence? && 0 <= i < |Get(c, path).items|
    requires !Decimal.IsDigit(c.separator)
    ensures String(c, path + [c.separator] + Decimal.IntToDecimal(i), []) == Strings(c, path)[i]
  {
    var items := Get(c, path).items;
    var idx := Decimal.IntToDecimal(i);
    DottedConcat(c, path, idx);
    Decimal.AtoiOfDecimal(i);
    assert c.separator !in idx by {
      assert Decimal.AllDigits(idx);
    }
    Text.SplitWithoutSeparator(idx, c.separator);
  }
}

=== FILE: decimal.dfy ===
/**
 * Base-10 integers as text: the rendering Go's fmt uses for an integer, and
 * the reading of a sequence index from a path segment. The model assumes the
 * resolver reads it as strconv.Atoi does: an optional sign followed by one or
 * more decimal digits.
 */
module Decimal {
  import opened Options

  predicate IsDigit(c: char) { '0' <= c <= '9' }

  predicate AllDigits(s: string)
  {
    forall i :: 0 <= i < |s| ==> IsDigit(s[i])
  }

  function DigitChar(d: nat): (c: char)
    requires d < 10
    ensures IsDigit(c) && c as int - '0' as int == d
  {
    (d + '0' as int) as char
  }

  /** The value of a run of decimal digits, most significant first. */
  function DigitsValue(s: string): nat
    requires AllDigits(s)
    decreases |s|
  {
    if |s| == 0 then 0
    else DigitsValue(s[..|s| - 1]) * 10 + (s[|s| - 1] as int - '0' as int)
  }

  /** The shortest decimal rendering of `n`: no sign, no leading zero. */
  function NatToDecimal(n: nat): (s: string)
    ensures |s| >= 1 && AllDigits(s)
    ensures s[0] == '0' ==> n == 0 && s == "0"
    decreases n
  {
    if n < 10 then [DigitChar(n)]
    else NatToDecimal(n / 10) + [DigitChar(n % 10)]
  }

  /** How fmt prints an integer: a minus sign for negative values, then the
      shortest run of digits whose value is the magnitude. */
  function IntToDecimal(i: int): (s: string)
    ensures Canonical(s)
    ensures i >= 0 ==> AllDigits(s) && DigitsValue(s) == i
    ensures i < 0 ==> s[0] == '-' && AllDigits(s[1..]) && DigitsValue(s[1..]) == -i
  {
    if i < 0 then
      var body := NatToDecimal(-i);
      DigitsOfNat(-i);
      assert ("-" + body)[1..] == body;
      "-" + body
    else
      DigitsOfNat(i);
      NatToDecimal(i)
  }

  /** strconv.Atoi: an optional '+' or '-' and at least one digit, nothing else. */
  function Atoi(s: string): (r: Option<int>)
    ensures r.Some? <==>
      (|s| >= 1 && AllDigits(s)) ||
      (|s| >= 2 && (s[0] == '+' || s[0] == '-') && AllDigits(s[1..]))
    ensures r.Some? && s[0] != '-' ==> r.value >= 0
  {
    if |s| >= 1 && (s[0] == '+' || s[0] == '-') then
      var body := s[1..];
      if |body| >= 1 && AllDigits(body) then
        var magnitude: int := DigitsValue(body);
        Some(if s[0] == '-' then -magnitude else magnitude)
      else None
    else if |s| >= 1 && AllDigits(s) then Some(DigitsValue(s))
    else None
  }

  /** A canonical rendering: what IntToDecimal produces, with no '+' sign,
      no leading zero and no "-0". */
  predicate Canonical(s: string)
  {
    if |s| >= 1 && s[0] == '-' then
      |s| >= 2 && AllDigits(s[1..]) && s[1] != '0'
    else
      |s| >= 1 && AllDigits(s) && (s[0] == '0' ==> s == "0")
  }

  lemma {:induction false} DigitsOfNat(n: nat)
    ensures DigitsValue(NatToDecimal(n)) == n
    decreases n
  {
    var s := NatToDecimal(n);
    if n >= 10 {
      DigitsOfNat(n / 10);
      assert s[..|s| - 1] == NatToDecimal(n / 10);
    }
  }

  /** Reading back a rendered integer gives the integer. */
  lemma AtoiOfDecimal(i: int)
    ensures Atoi(IntToDecimal(i)) == Some(i)
    ensures Canonical(IntToDecimal(i))
  {
    var s := IntToDecimal(i);
    if i < 0 {
      DigitsOfNat(-i);
      assert s[1..] == NatToDecimal(-i);
      assert !IsDigit(s[0]);
    } else {
      DigitsOfNat(i);
    }
  }

  lemma {:induction false} DigitsRoundTrip(s: string)
    requires |s| >= 1 && AllDigits(s) && (s[0] == '0' ==> s == "0")
    ensures NatToDecimal(DigitsValue(s)) == s
    decreases |s|
  {
    var init := s[..|s| - 1];
    var d := s[|s| - 1] as int - '0' as int;
    if |s| == 1 {
      assert DigitsValue(s) == d;
    } else {
      assert init[0] == s[0];
      assert init[0] != '0';
      DigitsRoundTrip(init);
      assert DigitsValue(init) != 0;
      var n := DigitsValue(s);
      assert n == DigitsValue(init) * 10 + d;
      assert n / 10 == DigitsValue(init) && n % 10 == d;
      assert s == init + [s[|s| - 1]];
    }
  }

  /** Conversely, a canonical decimal that Atoi accepts is exactly the
      rendering of the value it reads. */
  lemma DecimalOfAtoi(s: string)
    requires Canonical(s)
    ensures Atoi(s).Some? && IntToDecimal(Atoi(s).value) == s
  {
    if s[0] == '-' {
      var body := s[1..];
      DigitsRoundTrip(body);
      assert DigitsValue(body) != 0;
      assert s == "-" + body;
    } else {
      DigitsRoundTrip(s);
    }
  }
}

=== FILE: options.dfy ===
/** The optional-result type shared by the parser and the resolver. */
module Options {

  datatype Option<+T> = None | Some(value: T) {

    /** The carried value, or `fallback` when there is none. */
    function GetOr(fallback: T): (r: T)
      ensures Some? ==> r == value
      ensures None? ==> r == fallback
    {
      match this
      case Some(v) => v
      case None => fallback
    }
  }
}

=== FILE: order.dfy ===
/**
 * The byte-wise string order Go uses for `<` on strings, and the sorted key
 * list fmt uses when it prints a map.
 */
module Order {

  /** `a` sorts at or before `b`: character by character, a proper prefix first. */
  predicate LexLeq(a: string, b: string)
    decreases |a|
  {
    |a| == 0 || (|b| > 0 && (a[0] < b[0] || (a[0] == b[0] && LexLeq(a[1..], b[1..]))))
  }

  lemma {:induction false} LexLeqTotal(a: string, b: string)
    ensures LexLeq(a, b) || LexLeq(b, a)
    decreases |a|
  {
    if |a| > 0 && |b| > 0 && a[0] == b[0] {
      LexLeqTotal(a[1..], b[1..]);
    }
  }

  lemma {:induction false} LexLeqAntisymmetric(a: string, b: string)
    requires LexLeq(a, b) && LexLeq(b, a)
    ensures a == b
    decreases |a|
  {
    if |a| > 0 {
      LexLeqAntisymmetric(a[1..], b[1..]);
      assert a == [a[0]] + a[1..] && b == [b[0]] + b[1..];
    }
  }

  lemma {:induction false} LexLeqTransitive(a: string, b: string, c: string)
    requires LexLeq(a, b) && LexLeq(b, c)
    ensures LexLeq(a, c)
    decreases |a|
  {
    if |a| > 0 && a[0] == b[0] && b[0] == c[0] {
      LexLeqTransitive(a[1..], b[1..], c[1..]);
    }
  }

  lemma LexLeqAntisymmetricAll()
    ensures forall a, b :: LexLeq(a, b) && LexLeq(b, a) ==> a == b
  {
    forall a, b | LexLeq(a, b) && LexLeq(b, a) ensures a == b {
      LexLeqAntisymmetric(a, b);
    }
  }

  /** Every finite non-empty set of strings has a least element. */
  lemma {:induction false} LeastWitness(keys: set<string>) returns (m: string)
    requires keys != {}
    ensures m in keys && forall y :: y in keys ==> LexLeq(m, y)
    decreases |keys|
  {
    var x :| x in keys;
    var rest := keys - {x};
    if rest == {} {
      m := x;
      assert keys == {x};
      LexLeqTotal(x, x);
    } else {
      var least := LeastWitness(rest);
      LexLeqTotal(x, least);
      if LexLeq(x, least) {
        m := x;
        forall y | y in keys ensures LexLeq(x, y) {
          if y == x {
            LexLeqTotal(x, x);
          } else {
            assert y in rest;
            LexLeqTransitive(x, least, y);
          }
        }
      } else {
        m := least;
      }
    }
  }

  lemma LeastExists(keys: set<string>)
    requires keys != {}
    ensures exists m :: m in keys && forall y :: y in keys ==> LexLeq(m, y)
  {
    var m := LeastWitness(keys);
  }

  /** The least string of a non-empty set. */
  function Least(keys: set<string>): (m: string)
    requires keys != {}
    ensures m in keys
    ensures forall y :: y in keys ==> LexLeq(m, y)
  {
    LeastExists(keys);
    LexLeqAntisymmetricAll();
    var m :| m in keys && forall y :: y in keys ==> LexLeq(m, y);
    m
  }

  /** Strictly increasing: sorted and free of repeats. */
  predicate StrictlySorted(s: seq<string>)
  {
    forall i, j :: 0 <= i < j < |s| ==> LexLeq(s[i], s[j]) && s[i] != s[j]
  }

  /** The members of `keys` in increasing order, each exactly once. */
  function SortedKeys(keys: set<string>): (r: seq<string>)
    ensures |r| == |keys|
    ensures forall i :: 0 <= i < |r| ==> r[i] in keys
    ensures forall k :: k in keys ==> k in r
    ensures StrictlySorted(r)
    decreases |keys|
  {
    if keys == {} then []
    else
      var m := Least(keys);
      var rest := SortedKeys(keys - {m});
      ConsSorted(m, rest, keys);
      ConsCovers(m, rest, keys);
      [m] + rest
  }

  /** Putting the least key in front of the sorted others keeps the order strict. */
  lemma ConsSorted(m: string, rest: seq<string>, keys: set<string>)
    requires m in keys && forall y :: y in keys ==> LexLeq(m, y)
    requires forall i :: 0 <= i < |rest| ==> rest[i] in keys - {m}
    requires StrictlySorted(rest)
    ensures StrictlySorted([m] + rest)
  {
    var r := [m] + rest;
    forall i, j | 0 <= i < j < |r| ensures LexLeq(r[i], r[j]) && r[i] != r[j] {
      if i > 0 {
        assert r[i] == rest[i - 1] && r[j] == rest[j - 1];
      } else {
        assert r[j] == rest[j - 1] && rest[j - 1] in keys - {m};
      }
    }
  }

  /** ... and every key still appears. */
  lemma ConsCovers(m: string, rest: seq<string>, keys: set<string>)
    requires forall k :: k in keys - {m} ==> k in rest
    ensures forall k :: k in keys ==> k in [m] + rest
  {
    forall k | k in keys ensures k in [m] + rest {
      if k != m { assert k in rest; }
    }
  }
}

=== FILE: resolve.dfy ===
/**
 * The path resolver: walking the value tree one path segment at a time.
 * A Mapping is entered by key, a Sequence by a base-10 index; a scalar
 * cannot be entered at all.
 */
module Resolve {
  import opened Options
  import opened Decimal
  import opened Values

  /** Why a lookup found nothing. */
  datatype Miss =
    | EmptyPath        // the path string was empty
    | NoSuchKey        // a Mapping lacks the segment as a key
    | NotContainer     // segments remain below a scalar or null
    | BadIndex         // a Sequence segment is not a base-10 integer
    | OutOfRange       // a Sequence index is negative or past the end

  /** The (value, found) pair a lookup returns, with the reason when not found. */
  datatype Lookup = Found(value: Value) | Missing(why: Miss) {

    /** The value as Go's Get returns it: nil when nothing was found. */
    function OrNull(): (v: Value)
      ensures Found? ==> v == value
      ensures Missing? ==> v == Null
    {
      match this
      case Found(v) => v
      case Missing(_) => Null
    }
  }

  /** Descends one level from `v` along segment `seg`. */
  function Step(v: Value, seg: string): (r: Lookup)
    ensures v.Mapping? ==> (r.Found? <==> seg in v.entries)
    ensures v.Mapping? && r.Found? ==> r.value == v.entries[seg]
    ensures v.Sequence? ==>
      (r.Found? <==> Atoi(seg).Some? && 0 <= Atoi(seg).value < |v.items|)
    ensures v.Sequence? && r.Found? ==> r.value == v.items[Atoi(seg).value]
    ensures v.Sequence? && Atoi(seg).None? ==> r == Missing(BadIndex)
    ensures !v.Mapping? && !v.Sequence? ==> r == Missing(NotContainer)
  {
    match v
    case Mapping(entries) =>
      if seg in entries then Found(entries[seg]) else Missing(NoSuchKey)
    case Sequence(items) =>
      (match Atoi(seg)
       case None => Missing(BadIndex)
       case Some(i) => if 0 <= i < |items| then Found(items[i]) else Missing(OutOfRange))
    case _ => Missing(NotContainer)
  }

  /** Follows every segment of `segs` from `v`; the first failing step decides. */
  function Walk(v: Value, segs: seq<string>): (r: Lookup)
    ensures |segs| == 0 ==> r == Found(v)
    ensures r.Missing? ==> r.why != EmptyPath
    decreases |segs|
  {
    if |segs| == 0 then Found(v)
    else
      match Step(v, segs[0])
      case Found(child) => Walk(child, segs[1..])
      case Missing(why) => Missing(why)
  }

  /** A walk finds a value exactly when every step along it does: from each
      prefix's value the next segment leads somewhere. */
  lemma {:induction false} WalkFoundIffEveryStep(v: Value, segs: seq<string>)
    ensures Walk(v, segs).Found? <==>
      forall i :: 0 <= i < |segs| ==>
        Walk(v, segs[..i]).Found? && Step(Walk(v, segs[..i]).value, segs[i]).Found?
    decreases |segs|
  {
    if |segs| > 0 {
      var n := |segs| - 1;
      var init := segs[..n];
      WalkFoundIffEveryStep(v, init);
      forall i | 0 <= i < n ensures init[..i] == segs[..i] && init[i] == segs[i] {
      }
      assert segs == init + [segs[n]];
      WalkAppend(v, init, [segs[n]]);
      match Walk(v, init)
      case Found(w) =>
        assert [segs[n]][1..] == [];
      case Missing(_) =>
    }
  }

  /** Walking a concatenation is walking the first part, then the rest from
      wherever the first part ended; a failure in the first part stands. */
  lemma {:induction false} WalkAppend(v: Value, p: seq<string>, q: seq<string>)
    ensures Walk(v, p + q) == (match Walk(v, p)
                               case Found(w) => Walk(w, q)
                               case Missing(why) => Missing(why))
    decreases |p|
  {
    if |p| > 0 {
      assert (p + q)[0] == p[0];
      assert (p + q)[1..] == p[1..] + q;
      match Step(v, p[0])
      case Found(child) => WalkAppend(child, p[1..], q);
      case Missing(_) =>
    } else {
      assert p + q == q;
    }
  }

  /** A path that fails keeps failing, for the same reason, however it is extended. */
  lemma MissingExtends(v: Value, p: seq<string>, q: seq<string>)
    requires Walk(v, p).Missing?
    ensures Walk(v, p + q) == Walk(v, p)
  {
    WalkAppend(v, p, q);
  }

  /** A path that is found was found at every prefix along the way. */
  lemma FoundPrefixes(v: Value, p: seq<string>, i: nat)
    requires Walk(v, p).Found?
    requires i <= |p|
    ensures Walk(v, p[..i]).Found?
  {
    assert p == p[..i] + p[i..];
    if Walk(v, p[..i]).Missing? {
      MissingExtends(v, p[..i], p[i..]);
    }
  }

  /** Every index of a Sequence is reached by its decimal rendering. */
  lemma IndexByDecimal(items: seq<Value>, i: int, rest: seq<string>)
    requires 0 <= i < |items|
    ensures Walk(Sequence(items), [IntToDecimal(i)] + rest) == Walk(items[i], rest)
  {
    AtoiOfDecimal(i);
    assert ([IntToDecimal(i)] + rest)[1..] == rest;
  }

  /** Nothing can be found below a scalar or null. */
  lemma ScalarBlocks(v: Value, segs: seq<string>)
    requires !v.Mapping? && !v.Sequence?
    requires |segs| >= 1
    ensures Walk(v, segs) == Missing(NotContainer)
  {
  }
}

=== FILE: scenarios.dfy ===
/**
 * The read engine's test scenarios replayed on the model. The JSON fixture
 * the tests load is reconstructed from what they assert about it.
 *
 * Each stage of the tests (first load, second load, Set, loading decoded
 * data) is described by a predicate on the store; a lemma shows that the
 * stage's operation leads from one predicate to the next, and the reads of
 * that stage are lemmas about any store satisfying its predicate.
 */
module Scenarios {
  import opened Options
  import opened Text
  import opened Decimal
  import opened Values
  import opened Resolve
  import opened Store
  import opened Accessors

  // ------------------------------------------------ lookup helpers

  /** `c` holds `v` under the top-level key `k`. */
  predicate Holds(c: Config, k: string, v: Value)
  {
    k in c.data && c.data[k] == v
  }

  /** A path without separators is looked up as one top-level key. */
  lemma Top(c: Config, a: string)
    requires c.separator == '.' && '.' !in a && a != ""
    ensures GetValue(c, a, true) == (if a in c.data then Found(c.data[a]) else Missing(NoSuchKey))
  {
    SplitWithoutSeparator(a, '.');
  }

  /** A path `a.b` is the top-level key `a`, then one step below it. */
  lemma Below(c: Config, a: string, b: string, p: string)
    requires c.separator == '.' && '.' !in a && '.' !in b
    requires p == a + "." + b
    ensures GetValue(c, p, true) ==
      (if a in c.data then Step(c.data[a], b) else Missing(NoSuchKey))
  {
    SplitTwo(a, b, '.');
    var root := Mapping(c.data);
    assert Walk(root, [a, b]) == (match Step(root, a)
                                  case Found(w) => Walk(w, [b])
                                  case Missing(why) => Missing(why));
    if a in c.data {
      assert Walk(c.data[a], [b]) == (match Step(c.data[a], b)
                                      case Found(w) => Walk(w, [])
                                      case Missing(why) => Missing(why));
    }
  }

  /** `a.b` below a Mapping held at `a`: the entry under `b`, if any. */
  lemma KeyBelow(c: Config, a: string, b: string, p: string, m: map<string, Value>)
    requires c.separator == '.' && '.' !in a && '.' !in b && p == a + "." + b
    requires Holds(c, a, Mapping(m))
    ensures GetValue(c, p, true) == (if b in m then Found(m[b]) else Missing(NoSuchKey))
  {
    Below(c, a, b, p);
  }

  /** `a.b` below a Mapping held at `a` that has no key `b` reads as nothing. */
  lemma AbsentKeyBelow(c: Config, a: string, b: string, p: string, m: map<string, Value>)
    requires c.separator == '.' && '.' !in a && '.' !in b && p == a + "." + b
    requires Holds(c, a, Mapping(m)) && b !in m
    ensures Int(c, p, []) == 0 && !Exists(c, p, true)
  {
    KeyBelow(c, a, b, p, m);
    ReadsMissing(c, p);
  }

  /** `a.b` below a Sequence held at `a`, where `b` reads as the index `i`. */
  lemma IndexBelow(c: Config, a: string, b: string, p: string, items: seq<Value>, i: int)
    requires c.separator == '.' && '.' !in a && '.' !in b && p == a + "." + b
    requires Holds(c, a, Sequence(items)) && Atoi(b) == Some(i)
    ensures GetValue(c, p, true) == (if 0 <= i < |items| then Found(items[i]) else Missing(OutOfRange))
  {
    Below(c, a, b, p);
  }

  /** ... and an index past the end reads as nothing. */
  lemma IndexPastEndBelow(c: Config, a: string, b: string, p: string, items: seq<Value>, i: int)
    requires c.separator == '.' && '.' !in a && '.' !in b && p == a + "." + b
    requires Holds(c, a, Sequence(items)) && Atoi(b) == Some(i) && i >= |items|
    ensures Int(c, p, []) == 0 && !Exists(c, p, true)
  {
    IndexBelow(c, a, b, p, items, i);
    ReadsMissing(c, p);
  }

  /** `a.b` below a Sequence held at `a`, where `b` is not a number. */
  lemma NoIndexBelow(c: Config, a: string, b: string, p: string, items: seq<Value>)
    requires c.separator == '.' && '.' !in a && '.' !in b && p == a + "." + b
    requires Holds(c, a, Sequence(items)) && Atoi(b) == None
    ensures GetValue(c, p, true) == Missing(BadIndex)
  {
    Below(c, a, b, p);
  }

  /** ... such as a word: it does not start with a digit or a sign. */
  lemma WordBelow(c: Config, a: string, b: string, p: string, items: seq<Value>)
    requires c.separator == '.' && '.' !in a && '.' !in b && p == a + "." + b
    requires Holds(c, a, Sequence(items))
    requires |b| >= 1 && !IsDigit(b[0]) && b[0] != '+' && b[0] != '-'
    ensures GetValue(c, p, true) == Missing(BadIndex) && Get(c, p) == Null
  {
    NotAnIndex(b);
    NoIndexBelow(c, a, b, p, items);
  }

  /** `a.b` below a scalar held at `a`. */
  lemma ScalarBelow(c: Config, a: string, b: string, p: string, w: Value)
    requires c.separator == '.' && '.' !in a && '.' !in b && p == a + "." + b
    requires Holds(c, a, w) && !w.Mapping? && !w.Sequence?
    ensures GetValue(c, p, true) == Missing(NotContainer)
  {
    Below(c, a, b, p);
  }

  /** `a.b` where nothing is held at `a`. */
  lemma NothingBelow(c: Config, a: string, b: string, p: string)
    requires c.separator == '.' && '.' !in a && '.' !in b && p == a + "." + b
    requires a !in c.data
    ensures GetValue(c, p, true) == Missing(NoSuchKey)
  {
    Below(c, a, b, p);
  }

  /** Small decimal literals as strconv.Atoi reads them. */
  lemma SmallIndexes()
    ensures Atoi("1") == Some(1)
    ensures Atoi("100") == Some(100)
    ensures Atoi("200") == Some(200)
  {
    assert "100"[..2] == "10" && "10"[..1] == "1";
    assert "200"[..2] == "20" && "20"[..1] == "2";
    assert DigitsValue("100") == 100;
    assert DigitsValue("200") == 200;
  }

  /** A segment starting with neither a digit nor a sign is no index. */
  lemma NotAnIndex(s: string)
    requires |s| >= 1 && !IsDigit(s[0]) && s[0] != '+' && s[0] != '-'
    ensures Atoi(s) == None
  {
    assert !AllDigits(s);
  }

  /** What every accessor reads at a path that is found. */
  lemma ReadsFound(c: Config, p: string, v: Value)
    requires GetValue(c, p, true) == Found(v)
    ensures Exists(c, p, true) && Get(c, p) == v
    ensures forall d :: Int(c, p, d) == IntOf(v)
    ensures forall d :: Int64(c, p, d) == IntOf(v)
    ensures forall d :: Accessors.Bool(c, p, d) == BoolOf(v)
    ensures forall d :: String(c, p, d) == Render(v)
    ensures v.Sequence? ==> Strings(c, p) == RenderItems(v.items, v)
    ensures v.Sequence? ==> Ints(c, p) == IntsOf(v.items).GetOr([])
    ensures !v.Sequence? ==> Strings(c, p) == [] && Ints(c, p) == []
    ensures v.Mapping? ==> IntMap(c, p) == IntMapOf(v.entries).GetOr(map[])
    ensures v.Mapping? ==> StringMap(c, p).Keys == v.entries.Keys
    ensures v.Mapping? ==> forall k :: k in v.entries ==> StringMap(c, p)[k] == Render(v.entries[k])
    ensures !v.Mapping? ==> IntMap(c, p) == map[] && StringMap(c, p) == map[]
  {
  }

  /** What every accessor reads at a path that is missing. */
  lemma ReadsMissing(c: Config, p: string)
    requires GetValue(c, p, true).Missing?
    ensures !Exists(c, p, true) && Get(c, p) == Null
    ensures forall d :: Int(c, p, d) == DefaultOr(d, 0)
    ensures forall d :: Int64(c, p, d) == DefaultOr(d, 0)
    ensures forall d :: Accessors.Bool(c, p, d) == DefaultOr(d, false)
    ensures forall d :: String(c, p, d) == DefaultOr(d, "")
    ensures Strings(c, p) == [] && Ints(c, p) == []
    ensures IntMap(c, p) == map[] && StringMap(c, p) == map[]
  {
  }

  // ------------------------------------------------ value helpers

  lemma IntsOfTwo(a: int, b: int)
    ensures IntsOf([Num(a), Num(b)]) == Some([a, b])
  {
    var r := IntsOf([Num(a), Num(b)]);
    assert r.Some?;
    assert r.value[0] == a && r.value[1] == b;
    assert r.value == [a, b];
  }

  lemma IntsOfThree(a: int, b: int, d: int)
    ensures IntsOf([Num(a), Num(b), Num(d)]) == Some([a, b, d])
  {
    var r := IntsOf([Num(a), Num(b), Num(d)]);
    assert r.Some?;
    assert r.value[0] == a && r.value[1] == b && r.value[2] == d;
    assert r.value == [a, b, d];
  }

  lemma IntMapOfTwo(k0: string, a: int, k1: string, b: int)
    requires k0 != k1
    ensures IntMapOf(map[k0 := Num(a), k1 := Num(b)]) == Some(map[k0 := a, k1 := b])
  {
    var m := map[k0 := Num(a), k1 := Num(b)];
    assert m.Keys == {k0, k1};
    var r := IntMapOf(m);
    assert r.Some?;
    assert r.value.Keys == {k0, k1};
    var expected := map[k0 := a, k1 := b];
    assert r.value[k0] == a && r.value[k1] == b;
    assert r.value == expected;
  }

  lemma IntMapOfThree(k0: string, a: int, k1: string, b: int, k2: string, d: int)
    requires k0 != k1 && k0 != k2 && k1 != k2
    ensures IntMapOf(map[k0 := Num(a), k1 := Num(b), k2 := Num(d)]) == Some(map[k0 := a, k1 := b, k2 := d])
  {
    var m := map[k0 := Num(a), k1 := Num(b), k2 := Num(d)];
    assert m.Keys == {k0, k1, k2};
    var r := IntMapOf(m);
    assert r.Some?;
    assert r.value.Keys == {k0, k1, k2};
    var expected := map[k0 := a, k1 := b, k2 := d];
    assert r.value[k0] == a && r.value[k1] == b && r.value[k2] == d;
    assert r.value == expected;
  }

  lemma StringsOfThree(a: string, b: string, d: string)
    ensures RenderItems([Str(a), Str(b), Str(d)], Sequence([Str(a), Str(b), Str(d)])) == [a, b, d]
  {
    var items := [Str(a), Str(b), Str(d)];
    var r := RenderItems(items, Sequence(items));
    assert r[0] == Render(items[0]) && r[1] == Render(items[1]) && r[2] == Render(items[2]);
  }

  /** %v of a sequence of three strings. */
  lemma RenderThree(a: string, b: string, d: string)
    ensures Render(Sequence([Str(a), Str(b), Str(d)])) == "[" + a + " " + b + " " + d + "]"
  {
    var items := [Str(a), Str(b), Str(d)];
    StringsOfThree(a, b, d);
    JoinPair(b, d, ' ');
    assert Join([a, b, d], ' ') == a + [' '] + (b + [' '] + d) by {
      assert [a, b, d][1..] == [b, d];
    }
    assert Render(Sequence(items)) == Bracket("[", a + [' '] + (b + [' '] + d));
    ThreeText(a, b, d);
  }

  /** String concatenation regrouped: the bracketed triple read left to right. */
  lemma ThreeText(a: string, b: string, d: string)
    ensures Bracket("[", a + [' '] + (b + [' '] + d)) == "[" + a + " " + b + " " + d + "]"
  {
    assert " " == [' '];
  }

  // ------------------------------------------------ the first load

  /** The decoded fixture: name, debug, age, map1 and arr1. The tests read no
      value under `map1.key`; "val" stands in for it. */
  function Fixture(): map<string, Value>
  {
    map[
      "name" := Str("app"),
      "debug" := Value.Bool(true),
      "age" := Num(123),
      "map1" := Mapping(map["key" := Str("val"), "key1" := Str("val1")]),
      "arr1" := Sequence([Str("val"), Str("val1"), Str("val2")])
    ]
  }

  /** The store the tests read from: ClearAll, then the fixture loaded. */
  function Loaded(): Config
  {
    Config(Fixture(), DefaultSeparator, false)
  }

  /** Loading a decoded JSON tree (already canonical) deep-merges it in. */
  lemma LoadCanonical(c: Config, m: map<string, Value>)
    ensures LoadData(c, EmbedMap(m)).data == Merge(c.data, m)
  {
    NormalizeEmbedMap(m);
  }

  /** Loading the fixture into a cleared store gives exactly Loaded(). */
  lemma LoadingTheFixture(c: Config)
    requires c.separator == DefaultSeparator
    ensures LoadData(ClearAll(c), EmbedMap(Fixture())) == Loaded()
  {
    LoadCanonical(ClearAll(c), Fixture());
    MergeIntoEmpty(Fixture());
  }

  /** What the tests assert of `map1`: a Mapping with a `key` entry, "val1"
      under `key1`, and no `notExist` entry; any other entries are allowed. */
  predicate Map1Shape(w: Value)
  {
    w.Mapping? && "key" in w.entries && "key1" in w.entries &&
    w.entries["key1"] == Str("val1") && "notExist" !in w.entries
  }

  /** The fixture's five values, each under its key; of `map1`, only what the tests assert. */
  predicate FixtureValues(c: Config)
  {
    Holds(c, "name", Str("app")) &&
    Holds(c, "debug", Value.Bool(true)) &&
    Holds(c, "age", Num(123)) &&
    "map1" in c.data && Map1Shape(c.data["map1"]) &&
    Holds(c, "arr1", Sequence([Str("val"), Str("val1"), Str("val2")]))
  }

  /** Top-level keys the tests look up and expect to find nothing under. */
  function ProbedKeys(): set<string>
  {
    {"notExist", "notExists", "not-exist", "map1.key", "arr1.1"}
  }

  /** The top-level keys the decoded data of the last stage brings. */
  function DecodedKeys(): set<string>
  {
    {"newIArr", "newSArr", "newIArr1", "newIArr2", "yMap", "yMap1", "yMap10", "yMap2"}
  }

  /** A store with the default separator holding the fixture, and none of the
      keys the tests probe or the later stages add. */
  predicate HoldsFixture(c: Config)
  {
    c.separator == '.' &&
    FixtureValues(c) &&
    c.data.Keys !! (ProbedKeys() + {"iArr", "iMap", "intMap0"} + DecodedKeys())
  }

  lemma LoadedHoldsFixture()
    ensures HoldsFixture(Loaded())
  {
    assert Loaded().data.Keys == {"name", "debug", "age", "map1", "arr1"};
    FixtureKeysAvoidLater();
  }

  /** None of the fixture's keys is one the tests probe or a later stage adds. */
  lemma FixtureKeysAvoidLater()
    ensures {"name", "debug", "age", "map1", "arr1"} !! (ProbedKeys() + {"iArr", "iMap", "intMap0"} + DecodedKeys())
  {
  }

  // TestConfig_GetValue

  lemma EmptyPathNotFound(c: Config)
    requires HoldsFixture(c)
    ensures GetValue(c, "", true) == Missing(EmptyPath)
    ensures !Exists(c, "", true)
  {
  }

  lemma AbsentTopKey(c: Config)
    requires HoldsFixture(c)
    ensures GetValue(c, "notExist", true) == Missing(NoSuchKey)
  {
    assert "notExist" !in c.data;
    Top(c, "notExist");
  }

  /** Descending below a scalar fails, and the failure is latched. */
  lemma BelowScalar(c: Config)
    requires HoldsFixture(c)
    ensures GetValue(c, "name.sub", true) == Missing(NotContainer)
    ensures AfterGetValue(c, "name.sub", true).failed
  {
    ScalarBelow(c, "name", "sub", "name.sub", Str("app"));
  }

  /** Non-dotted mode does not split, so "map1.key" is not a key. */
  lemma NonDottedMap1Key(c: Config)
    requires HoldsFixture(c)
    ensures GetValue(c, "map1.key", false) == Missing(NoSuchKey)
    ensures !Exists(c, "map1.key", false)
  {
    assert "map1.key" !in c.data;
  }

  lemma AbsentSecondLevelKey(c: Config)
    requires HoldsFixture(c)
    ensures GetValue(c, "map1.notExist", true) == Missing(NoSuchKey)
    ensures Get(c, "map1.notExist") == Null
  {
    KeyBelow(c, "map1", "notExist", "map1.notExist", c.data["map1"].entries);
  }

  lemma AbsentPrefix(c: Config)
    requires HoldsFixture(c)
    ensures GetValue(c, "notExist.sub", true) == Missing(NoSuchKey)
    ensures Get(c, "notExist.sub") == Null
  {
    assert "notExist" !in c.data;
    NothingBelow(c, "notExist", "sub", "notExist.sub");
  }

  lemma IndexPastEnd(c: Config)
    requires HoldsFixture(c)
    ensures GetValue(c, "arr1.100", true) == Missing(OutOfRange)
    ensures Get(c, "arr1.100") == Null
  {
    SmallIndexes();
    IndexBelow(c, "arr1", "100", "arr1.100", [Str("val"), Str("val1"), Str("val2")], 100);
  }

  lemma IndexNotANumber(c: Config)
    requires HoldsFixture(c)
    ensures GetValue(c, "arr1.notExist", true) == Missing(BadIndex)
    ensures Get(c, "arr1.notExist") == Null
  {
    WordBelow(c, "arr1", "notExist", "arr1.notExist", [Str("val"), Str("val1"), Str("val2")]);
  }

  // TestGet, before the second load

  lemma FixtureNotEmpty(c: Config)
    requires HoldsFixture(c)
    ensures !IsEmpty(c)
    ensures Exists(c, "age", true)
  {
    Top(c, "age");
  }

  lemma ExistsNestedKey(c: Config)
    requires HoldsFixture(c)
    ensures Exists(c, "map1.key", true)
  {
    KeyBelow(c, "map1", "key", "map1.key", c.data["map1"].entries);
  }

  /** "arr1.1" exists dotted, and not as a literal top-level key. */
  lemma ExistsIndex(c: Config)
    requires HoldsFixture(c)
    ensures Exists(c, "arr1.1", true)
    ensures !Exists(c, "arr1.1", false)
  {
    SmallIndexes();
    IndexBelow(c, "arr1", "1", "arr1.1", [Str("val"), Str("val1"), Str("val2")], 1);
    assert "arr1.1" !in c.data;
  }

  lemma NotExistsDashed(c: Config)
    requires HoldsFixture(c)
    ensures !Exists(c, "not-exist.sub", true)
    ensures !Exists(c, "not-exist", true)
  {
    assert "not-exist" !in c.data;
    NothingBelow(c, "not-exist", "sub", "not-exist.sub");
    Top(c, "not-exist");
  }

  lemma GetAgeAndName(c: Config)
    requires HoldsFixture(c)
    ensures Get(c, "age") == Num(123)
    ensures Get(c, "name") == Str("app")
  {
    Top(c, "age");
    Top(c, "name");
  }

  lemma GetAbsent(c: Config)
    requires HoldsFixture(c)
    ensures Get(c, "not-exist") == Null
  {
    assert "not-exist" !in c.data;
    Top(c, "not-exist");
  }

  lemma StringsOfAbsent(c: Config)
    requires HoldsFixture(c)
    ensures Strings(c, "notExist") == []
  {
    assert "notExist" !in c.data;
    Top(c, "notExist");
    ReadsMissing(c, "notExist");
  }

  /** Strings on a Mapping is empty. */
  lemma StringsOfMapping(c: Config)
    requires HoldsFixture(c)
    ensures Strings(c, "map1") == []
  {
    Top(c, "map1");
    ReadsFound(c, "map1", c.data["map1"]);
  }

  lemma StringsOfArr1(c: Config)
    requires HoldsFixture(c)
    ensures Strings(c, "arr1") == ["val", "val1", "val2"]
  {
    Top(c, "arr1");
    ReadsFound(c, "arr1", c.data["arr1"]);
    StringsOfThree("val", "val1", "val2");
  }

  lemma StringOfIndex(c: Config)
    requires HoldsFixture(c)
    ensures String(c, "arr1.1", []) == "val1"
  {
    SmallIndexes();
    IndexBelow(c, "arr1", "1", "arr1.1", [Str("val"), Str("val1"), Str("val2")], 1);
    ReadsFound(c, "arr1.1", Str("val1"));
  }

  // TestInt, TestInt64

  lemma IntOfAge(c: Config)
    requires HoldsFixture(c)
    ensures Int(c, "age", []) == 123
    ensures Int64(c, "age", []) == 123
  {
    Top(c, "age");
    ReadsFound(c, "age", Num(123));
  }

  /** A found path ignores the default. */
  lemma Int64OfAgeWithDefault(c: Config)
    requires HoldsFixture(c)
    ensures Int64(c, "age", [34]) == 123
  {
    Top(c, "age");
    ReadsFound(c, "age", Num(123));
  }

  /** Int on a string is zero. */
  lemma IntOfName(c: Config)
    requires HoldsFixture(c)
    ensures Int(c, "name", []) == 0
    ensures Int64(c, "name", []) == 0
  {
    Top(c, "name");
    ReadsFound(c, "name", Str("app"));
  }

  /** A missing path gives the default, or zero without one. */
  lemma IntOfAbsent(c: Config)
    requires HoldsFixture(c)
    ensures Int(c, "notExist", [34]) == 34
    ensures Int(c, "notExist", []) == 0
    ensures Int64(c, "notExist", [34]) == 34
    ensures Int64(c, "notExist", []) == 0
  {
    assert "notExist" !in c.data;
    Top(c, "notExist");
    ReadsMissing(c, "notExist");
  }

  // TestString

  /** String on a sequence prints its elements space-joined in brackets. */
  lemma StringOfArr1(c: Config)
    requires HoldsFixture(c)
    ensures String(c, "arr1", []) == "[val val1 val2]"
  {
    Top(c, "arr1");
    ReadsFound(c, "arr1", c.data["arr1"]);
    Arr1Text();
  }

  lemma Arr1Text()
    ensures Render(Sequence([Str("val"), Str("val1"), Str("val2")])) == "[val val1 val2]"
  {
    RenderThree("val", "val1", "val2");
  }

  lemma StringOfAbsent(c: Config)
    requires HoldsFixture(c)
    ensures String(c, "notExists", []) == ""
    ensures String(c, "notExists", ["defVal"]) == "defVal"
  {
    assert "notExists" !in c.data;
    Top(c, "notExists");
    ReadsMissing(c, "notExists");
  }

  lemma StringOfName(c: Config)
    requires HoldsFixture(c)
    ensures String(c, "name", []) == "app"
  {
    Top(c, "name");
    ReadsFound(c, "name", Str("app"));
  }

  // TestBool

  lemma BoolOfDebug(c: Config)
    requires HoldsFixture(c)
    ensures Get(c, "debug") == Value.Bool(true)
    ensures Accessors.Bool(c, "debug", [])
    ensures Accessors.Bool(c, "debug", [false])
  {
    Top(c, "debug");
    ReadsFound(c, "debug", Value.Bool(true));
  }

  /** Bool on a number is false. */
  lemma BoolOfAge(c: Config)
    requires HoldsFixture(c)
    ensures !Accessors.Bool(c, "age", [])
  {
    Top(c, "age");
    ReadsFound(c, "age", Num(123));
  }

  lemma BoolOfAbsent(c: Config)
    requires HoldsFixture(c)
    ensures !Accessors.Bool(c, "notExist", [false])
    ensures !Accessors.Bool(c, "notExist", [])
  {
    assert "notExist" !in c.data;
    Top(c, "notExist");
    ReadsMissing(c, "notExist");
  }

  /** Every test ends with ClearAll: nothing is left, and no error. */
  lemma ClearAllAfterwards(c: Config)
    ensures IsEmpty(ClearAll(c)) && !ClearAll(c).failed
  {
  }

  // ------------------------------------------------ TestGet, the second load

  /** The second JSON document: a number array and a number map. */
  function Numbers(): map<string, Value>
  {
    map[
      "iArr" := Sequence([Num(12), Num(34), Num(36)]),
      "iMap" := Mapping(map["k1" := Num(12), "k2" := Num(34), "k3" := Num(36)])
    ]
  }

  /** The fixture and the numbers side by side. */
  predicate HoldsReloaded(c: Config)
  {
    c.separator == '.' &&
    FixtureValues(c) &&
    Holds(c, "iArr", Sequence([Num(12), Num(34), Num(36)])) &&
    Holds(c, "iMap", Mapping(map["k1" := Num(12), "k2" := Num(34), "k3" := Num(36)])) &&
    c.data.Keys !! (ProbedKeys() + {"intMap0"} + DecodedKeys())
  }

  /** A decoded document holding exactly the two numeric entries. */
  predicate NumbersInput(m: map<string, Value>)
  {
    m.Keys == {"iArr", "iMap"} &&
    m["iArr"] == Sequence([Num(12), Num(34), Num(36)]) &&
    m["iMap"] == Mapping(map["k1" := Num(12), "k2" := Num(34), "k3" := Num(36)])
  }

  lemma NumbersIsInput()
    ensures NumbersInput(Numbers())
  {
    assert Numbers().Keys == {"iArr", "iMap"};
  }

  /** Merging the numbers in keeps every fixture key. */
  lemma MergeKeepsFixture(c: Config, m: map<string, Value>)
    requires HoldsFixture(c) && NumbersInput(m)
    ensures FixtureValues(c.(data := Merge(c.data, m)))
  {
    assert "name" !in m && "debug" !in m && "age" !in m && "map1" !in m && "arr1" !in m;
  }

  /** ... and adds the two numeric entries. */
  lemma MergeAddsNumbers(c: Config, m: map<string, Value>)
    requires HoldsFixture(c) && NumbersInput(m)
    ensures Holds(c.(data := Merge(c.data, m)), "iArr", Sequence([Num(12), Num(34), Num(36)]))
    ensures Holds(c.(data := Merge(c.data, m)), "iMap", Mapping(map["k1" := Num(12), "k2" := Num(34), "k3" := Num(36)]))
  {
    assert "iMap" !in c.data;
  }

  /** ... and brings none of the keys the tests expect absent. */
  lemma MergeKeysOfNumbers(c: Config, m: map<string, Value>)
    requires HoldsFixture(c) && NumbersInput(m)
    ensures Merge(c.data, m).Keys !! (ProbedKeys() + {"intMap0"} + DecodedKeys())
  {
    assert m.Keys !! (ProbedKeys() + {"intMap0"} + DecodedKeys());
  }

  /** Loading the numbers keeps the fixture and adds the two new keys. */
  lemma SecondLoadOf(c: Config, m: map<string, Value>)
    requires HoldsFixture(c) && NumbersInput(m)
    ensures HoldsReloaded(LoadData(c, EmbedMap(m)))
  {
    LoadCanonical(c, m);
    MergeKeepsFixture(c, m);
    MergeAddsNumbers(c, m);
    MergeKeysOfNumbers(c, m);
    assert LoadData(c, EmbedMap(m)) == c.(data := Merge(c.data, m));
  }

  lemma SecondLoad(c: Config)
    requires HoldsFixture(c)
    ensures HoldsReloaded(LoadData(c, EmbedMap(Numbers())))
  {
    NumbersIsInput();
    SecondLoadOf(c, Numbers());
  }

  /** Ints and IntMap on a string scalar are empty; so is "name.1". */
  lemma IntsOfName(c: Config)
    requires HoldsReloaded(c)
    ensures Ints(c, "name") == []
    ensures IntMap(c, "name") == map[]
    ensures !Exists(c, "name.1", true)
  {
    Top(c, "name");
    ReadsFound(c, "name", Str("app"));
    ScalarBelow(c, "name", "1", "name.1", Str("app"));
  }

  lemma IntsOfAbsent(c: Config)
    requires HoldsReloaded(c)
    ensures Ints(c, "notExist") == []
    ensures IntMap(c, "notExist") == map[]
  {
    assert "notExist" !in c.data;
    Top(c, "notExist");
    ReadsMissing(c, "notExist");
  }

  /** A fully numeric array reads back whole, in order. */
  lemma IntsOfIArr(c: Config)
    requires HoldsReloaded(c)
    ensures Ints(c, "iArr") == [12, 34, 36]
  {
    Top(c, "iArr");
    ReadsFound(c, "iArr", c.data["iArr"]);
    IntsOfThree(12, 34, 36);
  }

  lemma IntOfIArrIndex(c: Config)
    requires HoldsReloaded(c)
    ensures Int(c, "iArr.1", []) == 34
  {
    SmallIndexes();
    IndexBelow(c, "iArr", "1", "iArr.1", [Num(12), Num(34), Num(36)], 1);
    ReadsFound(c, "iArr.1", Num(34));
  }

  lemma IntOfIArrPastEnd(c: Config)
    requires HoldsReloaded(c)
    ensures Int(c, "iArr.100", []) == 0
  {
    SmallIndexes();
    IndexPastEndBelow(c, "iArr", "100", "iArr.100", [Num(12), Num(34), Num(36)], 100);
  }

  lemma IntMapOfIMap(c: Config)
    requires HoldsReloaded(c)
    ensures IntMap(c, "iMap") == map["k1" := 12, "k2" := 34, "k3" := 36]
  {
    Top(c, "iMap");
    ReadsFound(c, "iMap", c.data["iMap"]);
    IntMapOfThree("k1", 12, "k2", 34, "k3", 36);
  }

  lemma IntOfIMapKey(c: Config)
    requires HoldsReloaded(c)
    ensures Int(c, "iMap.k2", []) == 34 && Exists(c, "iMap.k2", true)
  {
    KeyBelow(c, "iMap", "k2", "iMap.k2", map["k1" := Num(12), "k2" := Num(34), "k3" := Num(36)]);
    ReadsFound(c, "iMap.k2", Num(34));
  }

  lemma IntOfIMapAbsentKey(c: Config)
    requires HoldsReloaded(c)
    ensures Int(c, "iMap.notExist", []) == 0 && !Exists(c, "iMap.notExist", true)
  {
    AbsentKeyBelow(c, "iMap", "notExist", "iMap.notExist", map["k1" := Num(12), "k2" := Num(34), "k3" := Num(36)]);
  }

  // ------------------------------------------------ Set, then read back

  /** The value the test sets: map[string]int{"a": 1, "b": 2}. */
  function IntMap0(): Raw
  {
    RawStringMap(map["a" := RawNum(1), "b" := RawNum(2)])
  }

  /** The reloaded store with the set map under "intMap0". */
  predicate HoldsAfterSet(c: Config)
  {
    c.separator == '.' &&
    FixtureValues(c) &&
    Holds(c, "iArr", Sequence([Num(12), Num(34), Num(36)])) &&
    Holds(c, "iMap", Mapping(map["k1" := Num(12), "k2" := Num(34), "k3" := Num(36)])) &&
    Holds(c, "intMap0", Mapping(map["a" := Num(1), "b" := Num(2)])) &&
    c.data.Keys !! (ProbedKeys() + DecodedKeys())
  }

  /** Set on a separator-free key stores the normalised value under that key. */
  lemma SetTopKey(c: Config, k: string, x: Raw)
    requires c.separator == '.' && '.' !in k && k != ""
    ensures Set(c, k, x) == Written(c.(data := c.data[k := Normalize(x)]), None)
  {
    SplitWithoutSeparator(k, '.');
  }

  /** Set("intMap0", ...) succeeds and adds the normalised map. */
  lemma SetIntMap0(c: Config)
    requires HoldsReloaded(c)
    ensures Set(c, "intMap0", IntMap0()).err.None?
    ensures HoldsAfterSet(Set(c, "intMap0", IntMap0()).config)
  {
    NormalizeIntMap0();
    SetTopKey(c, "intMap0", IntMap0());
    AddIntMap0(c, Normalize(IntMap0()));
  }

  lemma NormalizeIntMap0()
    ensures Normalize(IntMap0()) == Mapping(map["a" := Num(1), "b" := Num(2)])
  {
    var written := Normalize(IntMap0());
    assert written.entries.Keys == {"a", "b"};
  }

  /** A new key beside the reloaded data leaves the reloaded data alone. */
  lemma AddIntMap0(c: Config, w: Value)
    requires HoldsReloaded(c) && w == Mapping(map["a" := Num(1), "b" := Num(2)])
    ensures HoldsAfterSet(c.(data := c.data["intMap0" := w]))
  {
    assert "intMap0" !in ProbedKeys() + DecodedKeys();
  }

  lemma IntMapAfterSet(c: Config)
    requires HoldsAfterSet(c)
    ensures IntMap(c, "intMap0") == map["a" := 1, "b" := 2]
  {
    Top(c, "intMap0");
    ReadsFound(c, "intMap0", c.data["intMap0"]);
    IntMapOfTwo("a", 1, "b", 2);
  }

  /** Paths below the written key read inside the written map. */
  lemma SetValueBelow(c: Config)
    requires HoldsAfterSet(c)
    ensures Get(c, "intMap0.b") == Num(2)
  {
    KeyBelow(c, "intMap0", "b", "intMap0.b", map["a" := Num(1), "b" := Num(2)]);
  }

  lemma SetKeyBelowExists(c: Config)
    requires HoldsAfterSet(c)
    ensures Exists(c, "intMap0.a", true)
  {
    KeyBelow(c, "intMap0", "a", "intMap0.a", map["a" := Num(1), "b" := Num(2)]);
  }

  lemma SetKeyBelowAbsent(c: Config)
    requires HoldsAfterSet(c)
    ensures !Exists(c, "intMap0.c", true)
  {
    KeyBelow(c, "intMap0", "c", "intMap0.c", map["a" := Num(1), "b" := Num(2)]);
  }

  /** Data from the first load is still readable. */
  lemma StringMapAfterSet(c: Config)
    requires HoldsAfterSet(c)
    ensures "key1" in StringMap(c, "map1")
    ensures StringMap(c, "map1")["key1"] == "val1"
  {
    Top(c, "map1");
    ReadsFound(c, "map1", c.data["map1"]);
  }

  // ------------------------------------------ loading already-decoded data

  /** Decoded data as a YAML decoder hands it over: typed slices, plain maps
      and interface-keyed maps. */
  function Decoded(): map<string, Raw>
  {
    map[
      "newIArr" := RawList([RawNum(2), RawNum(3)]),
      "newSArr" := RawList([RawStr("a"), RawStr("b")]),
      "newIArr1" := RawList([RawNum(12), RawNum(23)]),
      "newIArr2" := RawList([RawNum(12), RawStr("abc")]),
      "yMap" := RawKeyedMap([(KeyStr("k0"), RawStr("v0")), (KeyStr("k1"), RawNum(23))]),
      "yMap1" := RawKeyedMap([(KeyStr("k"), RawStr("v")), (KeyStr("k1"), RawNum(23)),
                              (KeyStr("k2"), RawList([RawNum(23), RawNum(45)]))]),
      "yMap10" := RawStringMap(map["k" := RawStr("v"), "k1" := RawNum(23),
                                   "k2" := RawList([RawNum(23), RawNum(45)])]),
      "yMap2" := RawKeyedMap([(KeyStr("k"), RawNum(2)), (KeyStr("k1"), RawNum(23))]),
      "yArr" := RawList([RawNum(23), RawNum(45), RawStr("val"), RawStringMap(map["k4" := RawStr("v4")])])
    ]
  }

  /** A store under the default separator holding the decoded data, normalised. */
  predicate HoldsDecoded(c: Config)
  {
    c.separator == '.' &&
    Holds(c, "newIArr", Sequence([Num(2), Num(3)])) &&
    Holds(c, "newSArr", Sequence([Str("a"), Str("b")])) &&
    Holds(c, "newIArr1", Sequence([Num(12), Num(23)])) &&
    Holds(c, "newIArr2", Sequence([Num(12), Str("abc")])) &&
    Holds(c, "yMap", Mapping(map["k0" := Str("v0"), "k1" := Num(23)])) &&
    Holds(c, "yMap1", Mapping(map["k" := Str("v"), "k1" := Num(23), "k2" := Sequence([Num(23), Num(45)])])) &&
    Holds(c, "yMap10", Mapping(map["k" := Str("v"), "k1" := Num(23), "k2" := Sequence([Num(23), Num(45)])])) &&
    Holds(c, "yMap2", Mapping(map["k" := Num(2), "k1" := Num(23)]))
  }

  /** Normalising a two-element list: element by element. */
  lemma PairList(x: Raw, y: Raw)
    ensures Normalize(RawList([x, y])) == Sequence([Normalize(x), Normalize(y)])
  {
    var v := Normalize(RawList([x, y]));
    assert v.items == [Normalize(x), Normalize(y)];
  }

  /** An interface-keyed map with two string keys becomes the plain map;
      were the keys equal, the later pair would win, as in a map display. */
  lemma KeyedPair(k0: string, x0: Raw, k1: string, x1: Raw)
    ensures Normalize(RawKeyedMap([(KeyStr(k0), x0), (KeyStr(k1), x1)]))
         == Mapping(map[k0 := Normalize(x0), k1 := Normalize(x1)])
  {
    var pairs := [(KeyStr(k0), x0), (KeyStr(k1), x1)];
    var whole := RawKeyedMap(pairs);
    assert pairs[..1] == [(KeyStr(k0), x0)];
    assert pairs[..1][..0] == [];
    assert NormalizePairs(pairs[..1], whole) == map[][k0 := Normalize(x0)];
  }

  /** The same with three string keys. */
  lemma KeyedTriple(k0: string, x0: Raw, k1: string, x1: Raw, k2: string, x2: Raw)
    ensures Normalize(RawKeyedMap([(KeyStr(k0), x0), (KeyStr(k1), x1), (KeyStr(k2), x2)]))
         == Mapping(map[k0 := Normalize(x0), k1 := Normalize(x1), k2 := Normalize(x2)])
  {
    var pairs := [(KeyStr(k0), x0), (KeyStr(k1), x1), (KeyStr(k2), x2)];
    var whole := RawKeyedMap(pairs);
    assert pairs[..2] == [(KeyStr(k0), x0), (KeyStr(k1), x1)];
    assert pairs[..2][..1] == [(KeyStr(k0), x0)];
    assert pairs[..2][..1][..0] == [];
    assert NormalizePairs(pairs[..2][..1], whole) == map[][k0 := Normalize(x0)];
    assert NormalizePairs(pairs[..2], whole) == map[k0 := Normalize(x0), k1 := Normalize(x1)];
  }

  /** A string-keyed map with three keys, value by value. */
  lemma PlainTriple(k0: string, x0: Raw, k1: string, x1: Raw, k2: string, x2: Raw)
    ensures Normalize(RawStringMap(map[k0 := x0, k1 := x1, k2 := x2]))
         == Mapping(map[k0 := Normalize(x0), k1 := Normalize(x1), k2 := Normalize(x2)])
  {
    var m := map[k0 := x0, k1 := x1, k2 := x2];
    var v := Normalize(RawStringMap(m));
    var e := map[k0 := Normalize(x0), k1 := Normalize(x1), k2 := Normalize(x2)];
    assert v.entries.Keys == m.Keys == e.Keys;
    forall k | k in e
      ensures v.entries[k] == e[k]
    {
      if k == k2 {
      } else if k == k1 {
      } else {
        assert k == k0;
      }
    }
    assert v.entries == e;
  }

  /** A decoded input with (at least) the entries the reads below use. */
  predicate DecodedInput(input: map<string, Raw>)
  {
    "newIArr" in input && input["newIArr"] == RawList([RawNum(2), RawNum(3)]) &&
    "newSArr" in input && input["newSArr"] == RawList([RawStr("a"), RawStr("b")]) &&
    "newIArr1" in input && input["newIArr1"] == RawList([RawNum(12), RawNum(23)]) &&
    "newIArr2" in input && input["newIArr2"] == RawList([RawNum(12), RawStr("abc")]) &&
    "yMap" in input && input["yMap"] == RawKeyedMap([(KeyStr("k0"), RawStr("v0")), (KeyStr("k1"), RawNum(23))]) &&
    "yMap1" in input && input["yMap1"] == RawKeyedMap([(KeyStr("k"), RawStr("v")), (KeyStr("k1"), RawNum(23)), (KeyStr("k2"), RawList([RawNum(23), RawNum(45)]))]) &&
    "yMap10" in input && input["yMap10"] == RawStringMap(map["k" := RawStr("v"), "k1" := RawNum(23), "k2" := RawList([RawNum(23), RawNum(45)])]) &&
    "yMap2" in input && input["yMap2"] == RawKeyedMap([(KeyStr("k"), RawNum(2)), (KeyStr("k1"), RawNum(23))])
  }

  lemma DecodedIsInput()
    ensures DecodedInput(Decoded())
  {
  }

  lemma LoadsNewIArr(c: Config, input: map<string, Raw>)
    requires "newIArr" !in c.data && "newIArr" in input
    requires input["newIArr"] == RawList([RawNum(2), RawNum(3)])
    ensures Holds(LoadData(c, input), "newIArr", Sequence([Num(2), Num(3)]))
  {
    LoadFreshKey(c, input, "newIArr");
    PairList(RawNum(2), RawNum(3));
  }

  lemma LoadsNewSArr(c: Config, input: map<string, Raw>)
    requires "newSArr" !in c.data && "newSArr" in input
    requires input["newSArr"] == RawList([RawStr("a"), RawStr("b")])
    ensures Holds(LoadData(c, input), "newSArr", Sequence([Str("a"), Str("b")]))
  {
    LoadFreshKey(c, input, "newSArr");
    PairList(RawStr("a"), RawStr("b"));
  }

  lemma LoadsNewIArr1(c: Config, input: map<string, Raw>)
    requires "newIArr1" !in c.data && "newIArr1" in input
    requires input["newIArr1"] == RawList([RawNum(12), RawNum(23)])
    ensures Holds(LoadData(c, input), "newIArr1", Sequence([Num(12), Num(23)]))
  {
    LoadFreshKey(c, input, "newIArr1");
    PairList(RawNum(12), RawNum(23));
  }

  lemma LoadsNewIArr2(c: Config, input: map<string, Raw>)
    requires "newIArr2" !in c.data && "newIArr2" in input
    requires input["newIArr2"] == RawList([RawNum(12), RawStr("abc")])
    ensures Holds(LoadData(c, input), "newIArr2", Sequence([Num(12), Str("abc")]))
  {
    LoadFreshKey(c, input, "newIArr2");
    PairList(RawNum(12), RawStr("abc"));
  }

  lemma LoadsYMap(c: Config, input: map<string, Raw>)
    requires "yMap" !in c.data && "yMap" in input
    requires input["yMap"] == RawKeyedMap([(KeyStr("k0"), RawStr("v0")), (KeyStr("k1"), RawNum(23))])
    ensures Holds(LoadData(c, input), "yMap", Mapping(map["k0" := Str("v0"), "k1" := Num(23)]))
  {
    LoadFreshKey(c, input, "yMap");
    KeyedPair("k0", RawStr("v0"), "k1", RawNum(23));
  }

  lemma LoadsYMap1(c: Config, input: map<string, Raw>)
    requires "yMap1" !in c.data && "yMap1" in input
    requires input["yMap1"] == RawKeyedMap([(KeyStr("k"), RawStr("v")), (KeyStr("k1"), RawNum(23)), (KeyStr("k2"), RawList([RawNum(23), RawNum(45)]))])
    ensures Holds(LoadData(c, input), "yMap1", Mapping(map["k" := Str("v"), "k1" := Num(23), "k2" := Sequence([Num(23), Num(45)])]))
  {
    LoadFreshKey(c, input, "yMap1");
    PairList(RawNum(23), RawNum(45));
    KeyedTriple("k", RawStr("v"), "k1", RawNum(23), "k2", RawList([RawNum(23), RawNum(45)]));
  }

  lemma LoadsYMap10(c: Config, input: map<string, Raw>)
    requires "yMap10" !in c.data && "yMap10" in input
    requires input["yMap10"] == RawStringMap(map["k" := RawStr("v"), "k1" := RawNum(23), "k2" := RawList([RawNum(23), RawNum(45)])])
    ensures Holds(LoadData(c, input), "yMap10", Mapping(map["k" := Str("v"), "k1" := Num(23), "k2" := Sequence([Num(23), Num(45)])]))
  {
    LoadFreshKey(c, input, "yMap10");
    PairList(RawNum(23), RawNum(45));
    PlainTriple("k", RawStr("v"), "k1", RawNum(23), "k2", RawList([RawNum(23), RawNum(45)]));
  }

  lemma LoadsYMap2(c: Config, input: map<string, Raw>)
    requires "yMap2" !in c.data && "yMap2" in input
    requires input["yMap2"] == RawKeyedMap([(KeyStr("k"), RawNum(2)), (KeyStr("k1"), RawNum(23))])
    ensures Holds(LoadData(c, input), "yMap2", Mapping(map["k" := Num(2), "k1" := Num(23)]))
  {
    LoadFreshKey(c, input, "yMap2");
    KeyedPair("k", RawNum(2), "k1", RawNum(23));
  }

  /** None of the decoded keys is in the store before the load. */
  lemma DecodedKeysFresh(c: Config)
    requires HoldsAfterSet(c)
    ensures "newIArr" !in c.data && "newSArr" !in c.data && "newIArr1" !in c.data && "newIArr2" !in c.data
    ensures "yMap" !in c.data && "yMap1" !in c.data && "yMap10" !in c.data && "yMap2" !in c.data
  {
    assert "newIArr" in DecodedKeys() && "newSArr" in DecodedKeys();
    assert "newIArr1" in DecodedKeys() && "newIArr2" in DecodedKeys();
    assert "yMap" in DecodedKeys() && "yMap1" in DecodedKeys();
    assert "yMap10" in DecodedKeys() && "yMap2" in DecodedKeys();
  }

  /** LoadData of the decoded data leads to a store the reads below apply to. */
  lemma DecodedLoadOf(c: Config, input: map<string, Raw>)
    requires HoldsAfterSet(c) && DecodedInput(input)
    ensures HoldsDecoded(LoadData(c, input))
  {
    DecodedKeysFresh(c);
    LoadsNewIArr(c, input);
    LoadsNewSArr(c, input);
    LoadsNewIArr1(c, input);
    LoadsNewIArr2(c, input);
    LoadsYMap(c, input);
    LoadsYMap1(c, input);
    LoadsYMap10(c, input);
    LoadsYMap2(c, input);
  }

  lemma DecodedLoad(c: Config)
    requires HoldsAfterSet(c)
    ensures HoldsDecoded(LoadData(c, Decoded()))
  {
    DecodedIsInput();
    DecodedLoadOf(c, Decoded());
  }

  lemma IntsOfNewIArr(c: Config)
    requires HoldsDecoded(c)
    ensures Ints(c, "newIArr") == [2, 3]
    ensures Ints(c, "newIArr1") == [12, 23]
  {
    Top(c, "newIArr");
    ReadsFound(c, "newIArr", c.data["newIArr"]);
    IntsOfTwo(2, 3);
    Top(c, "newIArr1");
    ReadsFound(c, "newIArr1", c.data["newIArr1"]);
    IntsOfTwo(12, 23);
  }

  /** One string among the numbers empties the whole reading. */
  lemma IntsOfMixedList(c: Config)
    requires HoldsDecoded(c)
    ensures Ints(c, "newIArr2") == []
  {
    Top(c, "newIArr2");
    ReadsFound(c, "newIArr2", c.data["newIArr2"]);
    assert !c.data["newIArr2"].items[1].Num?;
  }

  lemma IntOfNewIArrIndex(c: Config)
    requires HoldsDecoded(c)
    ensures Exists(c, "newIArr.1", true) && Int(c, "newIArr.1", []) == 3
  {
    SmallIndexes();
    IndexBelow(c, "newIArr", "1", "newIArr.1", [Num(2), Num(3)], 1);
    ReadsFound(c, "newIArr.1", Num(3));
  }

  lemma IntOfNewIArrPastEnd(c: Config)
    requires HoldsDecoded(c)
    ensures !Exists(c, "newIArr.200", true) && Int(c, "newIArr.200", []) == 0
  {
    SmallIndexes();
    IndexBelow(c, "newIArr", "200", "newIArr.200", [Num(2), Num(3)], 200);
    ReadsMissing(c, "newIArr.200");
  }

  /** A map holding a string is no IntMap, whatever its key type was. */
  lemma IntMapOfStringHolders(c: Config)
    requires HoldsDecoded(c)
    ensures IntMap(c, "yMap1") == map[]
    ensures IntMap(c, "yMap10") == map[]
  {
    var m := map["k" := Str("v"), "k1" := Num(23), "k2" := Sequence([Num(23), Num(45)])];
    assert "k" in m && !m["k"].Num?;
    Top(c, "yMap1");
    ReadsFound(c, "yMap1", Mapping(m));
    Top(c, "yMap10");
    ReadsFound(c, "yMap10", Mapping(m));
  }

  lemma IntMapOfYMap2(c: Config)
    requires HoldsDecoded(c)
    ensures IntMap(c, "yMap2") == map["k" := 2, "k1" := 23]
  {
    Top(c, "yMap2");
    ReadsFound(c, "yMap2", c.data["yMap2"]);
    IntMapOfTwo("k", 2, "k1", 23);
  }

  lemma StringOfNewSArrIndex(c: Config)
    requires HoldsDecoded(c)
    ensures Exists(c, "newSArr.1", true) && String(c, "newSArr.1", []) == "b"
  {
    SmallIndexes();
    IndexBelow(c, "newSArr", "1", "newSArr.1", [Str("a"), Str("b")], 1);
    ReadsFound(c, "newSArr.1", Str("b"));
  }

  lemma StringOfNewSArrPastEnd(c: Config)
    requires HoldsDecoded(c)
    ensures !Exists(c, "newSArr.100", true) && String(c, "newSArr.100", []) == ""
  {
    SmallIndexes();
    IndexBelow(c, "newSArr", "100", "newSArr.100", [Str("a"), Str("b")], 100);
    ReadsMissing(c, "newSArr.100");
  }

  /** The interface-keyed map reads by its key texts. */
  lemma YMapKeyFound(c: Config)
    requires HoldsDecoded(c)
    ensures Exists(c, "yMap.k0", true)
  {
    KeyBelow(c, "yMap", "k0", "yMap.k0", map["k0" := Str("v0"), "k1" := Num(23)]);
  }

  lemma YMapKeyAbsent(c: Config)
    requires HoldsDecoded(c)
    ensures !Exists(c, "yMap.k100", true)
  {
    KeyBelow(c, "yMap", "k100", "yMap.k100", map["k0" := Str("v0"), "k1" := Num(23)]);
  }

  lemma StringMapOfYMap(c: Config)
    requires HoldsDecoded(c)
    ensures "k0" in StringMap(c, "yMap") && StringMap(c, "yMap")["k0"] == "v0"
  {
    var m := map["k0" := Str("v0"), "k1" := Num(23)];
    assert "k0" in m && m["k0"] == Str("v0");
    Top(c, "yMap");
    ReadsFound(c, "yMap", Mapping(m));
  }

  lemma StringMapBelowYMapAbsent(c: Config)
    requires HoldsDecoded(c)
    ensures StringMap(c, "yMap.notExist") == map[]
  {
    KeyBelow(c, "yMap", "notExist", "yMap.notExist", map["k0" := Str("v0"), "k1" := Num(23)]);
    ReadsMissing(c, "yMap.notExist");
  }

  /** A list nested in an interface-keyed map reads as Ints. */
  lemma IntsBelowYMap1(c: Config)
    requires HoldsDecoded(c)
    ensures Ints(c, "yMap1.k2") == [23, 45]
  {
    KeyBelow(c, "yMap1", "k2", "yMap1.k2", map["k" := Str("v"), "k1" := Num(23), "k2" := Sequence([Num(23), Num(45)])]);
    ReadsFound(c, "yMap1.k2", Sequence([Num(23), Num(45)]));
    IntsOfTwo(23, 45);
  }
}

=== FILE: store.dfy ===
/**
 * The store: one root Mapping, the path separator, and the last-error slot
 * (kept here as a flag). Reads resolve a path string against the root; Set
 * splices a value in, creating Mappings along the way; LoadData deep-merges
 * a decoded tree into the root; ClearAll empties everything.
 */
module Store {
  import opened Options
  import opened Text
  import opened Values
  import opened Resolve

  const DefaultSeparator: char := '.'

  datatype Config = Config(data: map<string, Value>, separator: char, failed: bool)

  /** IsEmpty: the root holds no key. Then no path is found in either mode;
      otherwise some non-empty key is found as a literal top-level key. */
  function IsEmpty(c: Config): (r: bool)
    ensures r ==> forall path, dotted :: !Exists(c, path, dotted)
    ensures !r && "" !in c.data ==> exists path :: Exists(c, path, false)
  {
    if |c.data| == 0 then
      assert forall path, dotted :: !Exists(c, path, dotted) by {
        forall path, dotted ensures !Exists(c, path, dotted) {
          if path != "" && dotted {
            assert Split(path, c.separator)[0] !in c.data;
          }
        }
      }
      true
    else
      assert "" !in c.data ==> exists path :: Exists(c, path, false) by {
        var k :| k in c.data;
        if "" !in c.data {
          assert Exists(c, k, false);
        }
      }
      false
  }

  /**
   * GetValue(path, findByPath): the empty path is never found; with dotted
   * traversal off the path is one literal top-level key; otherwise the path
   * is split on the separator and walked from the root.
   */
  function GetValue(c: Config, path: string, dotted: bool): (r: Lookup)
    ensures path == "" ==> r == Missing(EmptyPath)
    ensures path != "" && !dotted ==> (r.Found? <==> path in c.data)
    ensures path != "" && !dotted && r.Found? ==> r.value == c.data[path]
  {
    if path == "" then Missing(EmptyPath)
    else if !dotted then
      (if path in c.data then Found(c.data[path]) else Missing(NoSuchKey))
    else Walk(Mapping(c.data), Split(path, c.separator))
  }

  /** Exists is the found flag of GetValue: the empty path never exists, a
      literal lookup asks for a top-level key, and a path free of the separator
      exists alike in both modes. */
  function Exists(c: Config, path: string, dotted: bool): (r: bool)
    ensures path == "" ==> !r
    ensures path != "" && !dotted ==> (r <==> path in c.data)
    ensures path != "" && c.separator !in path ==> (r <==> path in c.data)
  {
    if path != "" && c.separator !in path then
      SplitWithoutSeparator(path, c.separator);
      GetValue(c, path, dotted).Found?
    else GetValue(c, path, dotted).Found?
  }

  /** Get: the dotted lookup's value, nil when not found. */
  function Get(c: Config, path: string): (r: Value)
    ensures !Exists(c, path, true) ==> r == Null
    ensures Exists(c, path, true) ==> GetValue(c, path, true) == Found(r)
  {
    GetValue(c, path, true).OrNull()
  }

  /** The store after a GetValue call: the data is untouched and a failed
      lookup latches the error slot (which only ClearAll resets). */
  function AfterGetValue(c: Config, path: string, dotted: bool): (c': Config)
    ensures c'.data == c.data && c'.separator == c.separator
    ensures c.failed ==> c'.failed
    ensures !Exists(c, path, dotted) ==> c'.failed
    ensures Exists(c, path, dotted) ==> c'.failed == c.failed
  {
    if GetValue(c, path, dotted).Found? then c else c.(failed := true)
  }

  /** A path without the separator finds the same thing in both modes. */
  lemma PlainKeyBothModes(c: Config, path: string)
    requires c.separator !in path
    ensures GetValue(c, path, true) == GetValue(c, path, false)
  {
    if path != "" {
      SplitWithoutSeparator(path, c.separator);
      assert Split(path, c.separator)[1..] == [];
    }
  }

  /** With dotted traversal off, a path holding the separator is found only
      if some top-level key literally contains the separator. */
  lemma NonDottedNeedsLiteralKey(c: Config, path: string)
    requires c.separator in path
    requires forall k :: k in c.data ==> c.separator !in k
    ensures !Exists(c, path, false)
  {
  }

  /** A dotted path `a.b` resolves as `a`, then `b` from wherever `a` led. */
  lemma DottedConcat(c: Config, a: string, b: string)
    requires a != ""
    ensures GetValue(c, a + [c.separator] + b, true) ==
      (match GetValue(c, a, true)
       case Found(w) => Walk(w, Split(b, c.separator))
       case Missing(why) => Missing(why))
  {
    SplitConcat(a, b, c.separator);
    WalkAppend(Mapping(c.data), Split(a, c.separator), Split(b, c.separator));
  }

  // ---------------------------------------------------------------- Set

  datatype SetError = InvalidKey | PathBlocked

  /** What Set leaves behind: the store, and the error it returned. */
  datatype Written = Written(config: Config, err: Option<SetError>)

  /** Some proper prefix of `segs` reaches a value that is not a Mapping. */
  ghost predicate Blocked(v: Value, segs: seq<string>)
  {
    exists i :: 1 <= i < |segs| && Walk(v, segs[..i]).Found? && !Walk(v, segs[..i]).value.Mapping?
  }

  /**
   * Places `x` at `segs` below the Mapping `m`, creating empty Mappings for
   * missing intermediate keys and overwriting whatever was at the last key.
   * Fails when an intermediate key holds something other than a Mapping.
   */
  function Put(m: map<string, Value>, segs: seq<string>, x: Value): (r: Option<map<string, Value>>)
    requires |segs| >= 1
    ensures r.Some? ==> Walk(Mapping(r.value), segs) == Found(x)
    ensures r.Some? ==> r.value.Keys == m.Keys + {segs[0]}
    decreases |segs|
  {
    var k := segs[0];
    if |segs| == 1 then Some(m[k := x])
    else
      var child := if k in m then m[k] else Mapping(map[]);
      match child
      case Mapping(inner) =>
        (match Put(inner, segs[1..], x)
         case Some(inner') => Some(m[k := Mapping(inner')])
         case None => None)
      case _ => None
  }

  /** Put succeeds exactly when no proper prefix of the path is blocked. */
  lemma {:induction false} PutFailsIffBlocked(m: map<string, Value>, segs: seq<string>, x: Value)
    requires |segs| >= 1
    ensures Put(m, segs, x).None? <==> Blocked(Mapping(m), segs)
    decreases |segs|
  {
    var v := Mapping(m);
    var k := segs[0];
    if |segs| == 1 {
      assert !Blocked(v, segs);
    } else {
      var rest := segs[1..];
      // Walking a prefix of length i >= 1 is one step, then a prefix of `rest`.
      assert forall i :: 1 <= i <= |segs| ==> segs[..i][0] == k && segs[..i][1..] == rest[..i - 1];
      if k !in m {
        assert !Blocked(v, segs) by {
          forall i | 1 <= i < |segs| ensures Walk(v, segs[..i]).Missing? {
            assert segs[..i][0] == k;
          }
        }
        FreshPutSucceeds(rest, x);
      } else {
        var child := m[k];
        forall i | 1 <= i <= |segs| ensures Walk(v, segs[..i]) == Walk(child, rest[..i - 1]) {
          assert segs[..i][0] == k && segs[..i][1..] == rest[..i - 1];
        }
        if child.Mapping? {
          PutFailsIffBlocked(child.entries, rest, x);
          if Blocked(child, rest) {
            var j :| 1 <= j < |rest| && Walk(child, rest[..j]).Found? && !Walk(child, rest[..j]).value.Mapping?;
            assert Walk(v, segs[..j + 1]) == Walk(child, rest[..j]);
          }
          if Blocked(v, segs) {
            var i :| 1 <= i < |segs| && Walk(v, segs[..i]).Found? && !Walk(v, segs[..i]).value.Mapping?;
            assert Walk(v, segs[..i]) == Walk(child, rest[..i - 1]);
            assert i != 1 by { assert Walk(child, rest[..0]) == Found(child); }
          }
        } else {
          assert Walk(v, segs[..1]) == Walk(child, rest[..0]);
        }
      }
    }
  }

  /** Below a brand-new empty Mapping, Put always succeeds. */
  lemma FreshPutSucceeds(segs: seq<string>, x: Value)
    requires |segs| >= 1
    ensures Put(map[], segs, x).Some?
    decreases |segs|
  {
    if |segs| > 1 {
      FreshPutSucceeds(segs[1..], x);
    }
  }

  /** After a successful Put, every path below the written key walks into `x`. */
  lemma PutReadBack(m: map<string, Value>, segs: seq<string>, x: Value, rest: seq<string>)
    requires |segs| >= 1
    requires Put(m, segs, x).Some?
    ensures Walk(Mapping(Put(m, segs, x).value), segs + rest) == Walk(x, rest)
  {
    WalkAppend(Mapping(Put(m, segs, x).value), segs, rest);
  }

  /** After a successful Put, a path that parts from the written path before
      its end resolves exactly as it did before. */
  lemma {:induction false} PutLeavesOthers(m: map<string, Value>, segs: seq<string>, x: Value, q: seq<string>, i: nat)
    requires |segs| >= 1
    requires Put(m, segs, x).Some?
    requires i < |segs| && i < |q| && q[i] != segs[i]
    requires q[..i] == segs[..i]
    ensures Walk(Mapping(Put(m, segs, x).value), q) == Walk(Mapping(m), q)
    decreases |segs|
  {
    var m' := Put(m, segs, x).value;
    var k := segs[0];
    if i > 0 {
      assert q[0] == k by { assert q[..i][0] == segs[..i][0]; }
      assert q[1..][..i - 1] == segs[1..][..i - 1] by {
        assert q[1..][..i - 1] == q[..i][1..] && segs[1..][..i - 1] == segs[..i][1..];
      }
      var child := if k in m then m[k] else Mapping(map[]);
      var inner' := Put(child.entries, segs[1..], x).value;
      assert m'[k] == Mapping(inner');
      PutLeavesOthers(child.entries, segs[1..], x, q[1..], i - 1);
      if k !in m {
        // The old walk stops at `k`; the new one stops where q parts from segs.
        FreshWalkMisses(segs[1..], x, q[1..], i - 1);
      }
    }
  }

  /** In a Mapping built by Put from nothing, a path that parts from the
      written path before its end is missing, just as it was before. */
  lemma {:induction false} FreshWalkMisses(segs: seq<string>, x: Value, q: seq<string>, i: nat)
    requires |segs| >= 1
    requires i < |segs| && i < |q| && q[i] != segs[i]
    requires q[..i] == segs[..i]
    ensures Put(map[], segs, x).Some?
    ensures Walk(Mapping(Put(map[], segs, x).value), q) == Missing(NoSuchKey)
    decreases |segs|
  {
    FreshPutSucceeds(segs, x);
    if i > 0 {
      assert q[0] == segs[0] by { assert q[..i][0] == segs[..i][0]; }
      assert q[1..][..i - 1] == segs[1..][..i - 1] by {
        assert q[1..][..i - 1] == q[..i][1..] && segs[1..][..i - 1] == segs[..i][1..];
      }
      FreshWalkMisses(segs[1..], x, q[1..], i - 1);
    }
  }

  /** Set(path, value): normalises the value, then puts it at the split path.
      An empty path or a blocked path returns an error and leaves the data alone. */
  function Set(c: Config, path: string, x: Raw): (r: Written)
    ensures r.config.separator == c.separator
    ensures path == "" ==> r.err == Some(InvalidKey)
    ensures r.err.Some? ==> r.config.data == c.data && r.config.failed
    ensures r.err.None? ==> r.config.failed == c.failed
    ensures r.err.None? ==> GetValue(r.config, path, true) == Found(Normalize(x))
  {
    if path == "" then Written(c.(failed := true), Some(InvalidKey))
    else
      match Put(c.data, Split(path, c.separator), Normalize(x))
      case Some(data) => Written(c.(data := data), None)
      case None => Written(c.(failed := true), Some(PathBlocked))
  }

  /** Set fails with PathBlocked exactly when a proper prefix of the path holds a non-Mapping. */
  lemma SetBlockedIff(c: Config, path: string, x: Raw)
    requires path != ""
    ensures Set(c, path, x).err == Some(PathBlocked) <==> Blocked(Mapping(c.data), Split(path, c.separator))
  {
    PutFailsIffBlocked(c.data, Split(path, c.separator), Normalize(x));
  }

  /** After a successful Set(p, x), the path `p.rest` reads `rest` inside x. */
  lemma SetReadBack(c: Config, path: string, x: Raw, rest: string)
    requires Set(c, path, x).err.None?
    ensures GetValue(Set(c, path, x).config, path + [c.separator] + rest, true)
         == Walk(Normalize(x), Split(rest, c.separator))
  {
    var c' := Set(c, path, x).config;
    DottedConcat(c', path, rest);
  }

  // ---------------------------------------------------------------- LoadData

  /**
   * Deep merge of `b` into `a`: where both hold a Mapping under one key the
   * two are merged recursively; otherwise `b`'s value replaces `a`'s.
   */
  function Merge(a: map<string, Value>, b: map<string, Value>): (r: map<string, Value>)
    ensures r.Keys == a.Keys + b.Keys
    ensures forall k :: k in a && k !in b ==> r[k] == a[k]
    ensures forall k :: k in b && !(k in a && a[k].Mapping? && b[k].Mapping?) ==> r[k] == b[k]
    ensures forall k :: k in b && k in a && a[k].Mapping? && b[k].Mapping? ==>
      r[k].Mapping? && r[k].entries.Keys == a[k].entries.Keys + b[k].entries.Keys
    decreases Mapping(b)
  {
    map k | k in a.Keys + b.Keys ::
      if k in b then
        (if k in a && a[k].Mapping? && b[k].Mapping?
         then Mapping(Merge(a[k].entries, b[k].entries))
         else b[k])
      else a[k]
  }

  /** LoadData: normalises a decoded tree and deep-merges it into the root. */
  function LoadData(c: Config, input: map<string, Raw>): (c': Config)
    ensures c'.separator == c.separator && c'.failed == c.failed
    ensures c'.data.Keys == c.data.Keys + input.Keys
  {
    c.(data := Merge(c.data, Normalize(RawStringMap(input)).entries))
  }

  /** Merging maps with no key in common is their plain union. */
  lemma MergeDisjoint(a: map<string, Value>, b: map<string, Value>)
    requires a.Keys !! b.Keys
    ensures Merge(a, b) == a + b
  {
    var r := Merge(a, b);
    assert r.Keys == (a + b).Keys;
    forall k | k in r ensures r[k] == (a + b)[k] {
      if k in b { assert k !in a; }
    }
  }

  /** A key that only the loaded input holds reads back as that input, normalised. */
  lemma LoadFreshKey(c: Config, input: map<string, Raw>, k: string)
    requires k in input && k !in c.data
    ensures k in LoadData(c, input).data
    ensures LoadData(c, input).data[k] == Normalize(input[k])
  {
  }

  /** Merging in nothing changes nothing. */
  lemma MergeEmpty(a: map<string, Value>)
    ensures Merge(a, map[]) == a
  {
  }

  /** Merging into an empty root gives the merged-in tree. */
  lemma MergeIntoEmpty(b: map<string, Value>)
    ensures Merge(map[], b) == b
  {
  }

  /** Merging a tree into itself changes nothing, at any depth. */
  lemma {:induction false} MergeIdempotent(a: map<string, Value>)
    ensures Merge(a, a) == a
    decreases Mapping(a)
  {
    forall k | k in a && a[k].Mapping? ensures Merge(a[k].entries, a[k].entries) == a[k].entries {
      MergeIdempotent(a[k].entries);
    }
  }

  /** A path whose top key the merged-in tree lacks reads as before. */
  lemma MergeKeepsUntouched(a: map<string, Value>, b: map<string, Value>, q: seq<string>)
    requires |q| >= 1 && q[0] !in b
    ensures Walk(Mapping(Merge(a, b)), q) == Walk(Mapping(a), q)
  {
  }

  /** A non-Mapping value that the merged-in tree holds at a path is what
      the merged tree holds there. */
  lemma {:induction false} MergeLeafWins(a: map<string, Value>, b: map<string, Value>, q: seq<string>)
    requires |q| >= 1
    requires Walk(Mapping(b), q).Found? && !Walk(Mapping(b), q).value.Mapping?
    ensures Walk(Mapping(Merge(a, b)), q) == Walk(Mapping(b), q)
    decreases |q|
  {
    var k := q[0];
    assert k in b;
    if |q| > 1 && k in a && a[k].Mapping? && b[k].Mapping? {
      MergeLeafWins(a[k].entries, b[k].entries, q[1..]);
    }
  }

  /** Along every proper prefix of `q` that `b` reaches, both trees hold
      Mappings, so merging `b` into `a` descends along `q` rather than replacing. */
  ghost predicate MergesAlong(a: map<string, Value>, b: map<string, Value>, q: seq<string>)
  {
    forall i :: 1 <= i < |q| && Walk(Mapping(b), q[..i]).Found? ==>
      Walk(Mapping(b), q[..i]).value.Mapping? &&
      Walk(Mapping(a), q[..i]).Found? && Walk(Mapping(a), q[..i]).value.Mapping?
  }

  /** The deep merge keeps old nested values: a path found in the old tree and
      missing from the new one, along which the two trees merge as Mappings,
      reads as before. */
  lemma {:induction false} MergeKeepsOld(a: map<string, Value>, b: map<string, Value>, q: seq<string>)
    requires |q| >= 1
    requires Walk(Mapping(a), q).Found? && Walk(Mapping(b), q).Missing?
    requires MergesAlong(a, b, q)
    ensures Walk(Mapping(Merge(a, b)), q) == Walk(Mapping(a), q)
    decreases |q|
  {
    var k := q[0];
    if k !in b {
      MergeKeepsUntouched(a, b, q);
    } else {
      assert q[..1] == [k];
      assert Walk(Mapping(b), q[..1]) == Found(b[k]);
      if |q| > 1 {
        var rest := q[1..];
        var ae, be := a[k].entries, b[k].entries;
        forall i | 1 <= i <= |q|
          ensures Walk(Mapping(a), q[..i]) == Walk(Mapping(ae), rest[..i - 1])
          ensures Walk(Mapping(b), q[..i]) == Walk(Mapping(be), rest[..i - 1])
        {
          assert q[..i][0] == k && q[..i][1..] == rest[..i - 1];
        }
        assert q[..|q|] == q;
        forall i | 1 <= i < |rest| && Walk(Mapping(be), rest[..i]).Found?
          ensures Walk(Mapping(be), rest[..i]).value.Mapping?
          ensures Walk(Mapping(ae), rest[..i]).Found? && Walk(Mapping(ae), rest[..i]).value.Mapping?
        {
          assert Walk(Mapping(b), q[..i + 1]) == Walk(Mapping(be), rest[..i]);
          assert Walk(Mapping(a), q[..i + 1]) == Walk(Mapping(ae), rest[..i]);
        }
        MergeKeepsOld(ae, be, rest);
        assert Merge(a, b)[k] == Mapping(Merge(ae, be));
      }
    }
  }

  /** Loading more data keeps every earlier value it does not reach, at any
      depth, as long as the new data merges into the old along the path. */
  lemma LoadKeepsOld(c: Config, input: map<string, Raw>, path: string)
    requires path != ""
    requires GetValue(c, path, true).Found?
    requires Walk(Normalize(RawStringMap(input)), Split(path, c.separator)).Missing?
    requires MergesAlong(c.data, Normalize(RawStringMap(input)).entries, Split(path, c.separator))
    ensures GetValue(LoadData(c, input), path, true) == GetValue(c, path, true)
  {
    MergeKeepsOld(c.data, Normalize(RawStringMap(input)).entries, Split(path, c.separator));
  }

  /** LoadData keeps every earlier top-level entry the new data does not mention. */
  lemma LoadKeepsEarlier(c: Config, input: map<string, Raw>, path: string)
    requires path != ""
    requires Split(path, c.separator)[0] !in input
    ensures GetValue(LoadData(c, input), path, true) == GetValue(c, path, true)
  {
    var n := Normalize(RawStringMap(input)).entries;
    MergeKeepsUntouched(c.data, n, Split(path, c.separator));
  }

  // ---------------------------------------------------------------- ClearAll

  /** ClearAll: an empty root and a cleared error slot; nothing exists afterwards. */
  function ClearAll(c: Config): (c': Config)
    ensures IsEmpty(c') && !c'.failed && c'.separator == c.separator
    ensures forall path, dotted :: !Exists(c', path, dotted)
  {
    var c' := c.(data := map[], failed := false);
    assert forall path, dotted :: !Exists(c', path, dotted) by {
      forall path, dotted ensures !Exists(c', path, dotted) {
        if path != "" && dotted {
          assert Split(path, c.separator)[0] !in c'.data;
        }
      }
    }
    c'
  }

  /** Clearing twice is clearing once. */
  lemma ClearAllIdempotent(c: Config)
    ensures ClearAll(ClearAll(c)) == ClearAll(c)
  {
  }
}

=== FILE: text.dfy ===
/**
 * Splitting and joining on a one-character separator, with the meaning of
 * Go's strings.Split and strings.Join. Paths are split on the store's
 * separator, and sequences are printed by joining their elements with a space.
 */
module Text {

  /** Splits `s` at every occurrence of `sep`. Like strings.Split, the empty
      string gives one empty piece, and adjacent separators give empty pieces. */
  function Split(s: string, sep: char): (parts: seq<string>)
    ensures |parts| >= 1
    ensures forall i :: 0 <= i < |parts| ==> sep !in parts[i]
    decreases |s|
  {
    if |s| == 0 then [""]
    else
      var rest := Split(s[1..], sep);
      if s[0] == sep then [""] + rest
      else [[s[0]] + rest[0]] + rest[1..]
  }

  /** Concatenates `parts`, putting one `sep` between each neighbouring pair. */
  function Join(parts: seq<string>, sep: char): string
  {
    if |parts| == 0 then ""
    else if |parts| == 1 then parts[0]
    else parts[0] + [sep] + Join(parts[1..], sep)
  }

  /** Two pieces join around one separator. */
  lemma JoinPair(p: string, q: string, sep: char)
    ensures Join([p, q], sep) == p + [sep] + q
  {
    assert [p, q][1..] == [q];
  }

  /** Joining the pieces of a split gives back the original string. */
  lemma {:induction false} JoinSplit(s: string, sep: char)
    ensures Join(Split(s, sep), sep) == s
    decreases |s|
  {
    if |s| > 0 {
      var rest := Split(s[1..], sep);
      JoinSplit(s[1..], sep);
      if s[0] == sep {
        assert Split(s, sep) == [""] + rest;
        assert s == [sep] + s[1..];
      } else {
        assert Split(s, sep) == [[s[0]] + rest[0]] + rest[1..];
        if |rest| == 1 {
          assert Join(rest, sep) == rest[0];
        } else {
          assert Join(rest, sep) == rest[0] + [sep] + Join(rest[1..], sep);
        }
        assert s == [s[0]] + s[1..];
      }
    }
  }

  /** Splitting a join of separator-free pieces gives back the pieces. */
  lemma {:induction false} SplitJoin(parts: seq<string>, sep: char)
    requires |parts| >= 1
    requires forall i :: 0 <= i < |parts| ==> sep !in parts[i]
    ensures Split(Join(parts, sep), sep) == parts
    decreases |parts|, |parts[0]|
  {
    var head := parts[0];
    if |head| == 0 {
      if |parts| > 1 {
        var tail := Join(parts[1..], sep);
        assert Join(parts, sep) == [sep] + tail;
        SplitJoin(parts[1..], sep);
        assert ([sep] + tail)[1..] == tail;
        assert parts == [""] + parts[1..];
      }
    } else {
      var shorter := [head[1..]] + parts[1..];
      DropFirstChar(parts, sep);
      SplitJoin(shorter, sep);
      var joined := Join(parts, sep);
      JoinDropFirstChar(parts, sep);
      assert joined[0] == head[0] && head[0] in head;
      assert joined[1..] == Join(shorter, sep);
      assert head == [head[0]] + head[1..];
      assert parts == [head] + parts[1..];
      assert Split(joined, sep) == [[head[0]] + shorter[0]] + shorter[1..];
    }
  }

  /** Dropping the first character of the first piece keeps every piece
      separator-free. */
  lemma DropFirstChar(parts: seq<string>, sep: char)
    requires |parts| >= 1 && |parts[0]| >= 1
    requires forall i :: 0 <= i < |parts| ==> sep !in parts[i]
    ensures forall i :: 0 <= i < |[parts[0][1..]] + parts[1..]| ==> sep !in ([parts[0][1..]] + parts[1..])[i]
  {
    var shorter := [parts[0][1..]] + parts[1..];
    forall i | 0 <= i < |shorter| ensures sep !in shorter[i] {
      if i == 0 {
        assert forall c :: c in parts[0][1..] ==> c in parts[0];
      } else {
        assert shorter[i] == parts[i];
      }
    }
  }

  /** A join starts with the first character of its first piece, followed by
      the join with that character dropped. */
  lemma JoinDropFirstChar(parts: seq<string>, sep: char)
    requires |parts| >= 1 && |parts[0]| >= 1
    ensures Join(parts, sep) == [parts[0][0]] + Join([parts[0][1..]] + parts[1..], sep)
  {
    var head := parts[0];
    var shorter := [head[1..]] + parts[1..];
    assert head == [head[0]] + head[1..];
    if |parts| == 1 {
      assert Join(shorter, sep) == head[1..];
    } else {
      assert shorter[1..] == parts[1..];
      assert Join(shorter, sep) == head[1..] + [sep] + Join(parts[1..], sep);
    }
  }

  /** A string without the separator splits into itself alone. */
  lemma SplitWithoutSeparator(s: string, sep: char)
    requires sep !in s
    ensures Split(s, sep) == [s]
  {
    SplitJoin([s], sep);
  }

  /** Joining a concatenation of piece lists puts one separator between the halves. */
  lemma {:induction false} JoinAppend(p: seq<string>, q: seq<string>, sep: char)
    requires |p| >= 1 && |q| >= 1
    ensures Join(p + q, sep) == Join(p, sep) + [sep] + Join(q, sep)
    decreases |p|
  {
    if |p| == 1 {
      assert (p + q)[1..] == q;
    } else {
      JoinAppend(p[1..], q, sep);
      assert (p + q)[1..] == p[1..] + q;
    }
  }

  /** Splitting `a`, the separator, then `b` splits `a` and `b` separately:
      this is how a path extended by one more segment splits. */
  lemma SplitConcat(a: string, b: string, sep: char)
    ensures Split(a + [sep] + b, sep) == Split(a, sep) + Split(b, sep)
  {
    var pa, pb := Split(a, sep), Split(b, sep);
    JoinSplit(a, sep);
    JoinSplit(b, sep);
    JoinAppend(pa, pb, sep);
    SplitJoin(pa + pb, sep);
  }

  /** A two-segment path splits into its two segments. */
  lemma SplitTwo(a: string, b: string, sep: char)
    requires sep !in a && sep !in b
    ensures Split(a + [sep] + b, sep) == [a, b]
  {
    SplitConcat(a, b, sep);
    SplitWithoutSeparator(a, sep);
    SplitWithoutSeparator(b, sep);
  }
}

=== FILE: values.dfy ===
/**
 * The canonical value tree the store holds, how a decoded input is
 * normalised into it, and how fmt's %v verb prints it.
 */
module Values {
  import opened Text
  import opened Decimal
  import opened Order
  import opened Options

  /** Canonical value: the only shapes ever stored. Numbers are integers here. */
  datatype Value =
    | Null
    | Str(s: string)
    | Num(n: int)
    | Bool(b: bool)
    | Mapping(entries: map<string, Value>)
    | Sequence(items: seq<Value>)

  /** A key of a map whose key type is not string (YAML decodes to
      map[interface{}]interface{}); only comparable scalars can be keys. */
  datatype Key = KeyStr(s: string) | KeyNum(n: int) | KeyBool(b: bool)

  /**
   * A decoded input as a loader or a caller of Set hands it over, before
   * normalisation. Typed slices ([]int, []string, []interface{}) are all
   * lists; typed string-keyed maps (map[string]int, map[string]interface{})
   * are all string maps; an interface-keyed map lists its pairs in the order
   * the loader iterated them.
   */
  datatype Raw =
    | RawNull
    | RawStr(s: string)
    | RawNum(n: int)
    | RawBool(b: bool)
    | RawList(items: seq<Raw>)
    | RawStringMap(entries: map<string, Raw>)
    | RawKeyedMap(pairs: seq<(Key, Raw)>)

  function BoolText(b: bool): string
  {
    if b then "true" else "false"
  }

  /** The key a non-string map key becomes: its %v rendering. */
  function KeyText(k: Key): (t: string)
    ensures match k
      case KeyStr(s) => t == s
      case KeyNum(n) => Canonical(t) && Atoi(t) == Some(n)
      case KeyBool(b) => t == BoolText(b)
  {
    match k
    case KeyStr(s) => s
    case KeyNum(n) => AtoiOfDecimal(n); IntToDecimal(n)
    case KeyBool(b) => BoolText(b)
  }

  /** The input that ends up under key text `t`: the value of the last pair
      whose key renders as `t`, if there is one. */
  function LastWith(pairs: seq<(Key, Raw)>, t: string): (r: Option<Raw>)
    ensures r.Some? <==> exists i :: 0 <= i < |pairs| && KeyText(pairs[i].0) == t
    ensures r.Some? ==> exists i :: 0 <= i < |pairs| && KeyText(pairs[i].0) == t && pairs[i].1 == r.value
    decreases |pairs|
  {
    if |pairs| == 0 then None
    else
      var last := pairs[|pairs| - 1];
      var init := pairs[..|pairs| - 1];
      if KeyText(last.0) == t then Some(last.1)
      else
        var r := LastWith(init, t);
        assert forall i :: 0 <= i < |init| ==> init[i] == pairs[i];
        r
  }

  /** Converts a decoded input to canonical form, depth-first. */
  function Normalize(x: Raw): (v: Value)
    ensures x.RawNull? <==> v.Null?
    ensures x.RawStr? ==> v == Str(x.s)
    ensures x.RawNum? ==> v == Num(x.n)
    ensures x.RawBool? ==> v == Bool(x.b)
    ensures x.RawList? ==> v.Sequence? && |v.items| == |x.items|
    ensures x.RawList? ==> forall i :: 0 <= i < |x.items| ==> v.items[i] == Normalize(x.items[i])
    ensures x.RawStringMap? ==> v.Mapping? && v.entries.Keys == x.entries.Keys
    ensures x.RawStringMap? ==> forall k :: k in x.entries ==> v.entries[k] == Normalize(x.entries[k])
    ensures x.RawKeyedMap? ==> v.Mapping?
    decreases x, 1
  {
    match x
    case RawNull => Null
    case RawStr(s) => Str(s)
    case RawNum(n) => Num(n)
    case RawBool(b) => Bool(b)
    case RawList(items) =>
      Sequence(seq(|items|, i requires 0 <= i < |items| => Normalize(items[i])))
    case RawStringMap(entries) =>
      Mapping(map k | k in entries :: Normalize(entries[k]))
    case RawKeyedMap(pairs) => Mapping(NormalizePairs(pairs, x))
  }

  /** The later pair wins: LastWith picks the pair at the highest index whose key reads `t`. */
  lemma {:induction false} LastWithIsLast(pairs: seq<(Key, Raw)>, t: string, i: int)
    requires 0 <= i < |pairs| && KeyText(pairs[i].0) == t
    requires forall j :: i < j < |pairs| ==> KeyText(pairs[j].0) != t
    ensures LastWith(pairs, t) == Some(pairs[i].1)
    decreases |pairs|
  {
    if i < |pairs| - 1 {
      var init := pairs[..|pairs| - 1];
      assert KeyText(pairs[|pairs| - 1].0) != t;
      assert init[i] == pairs[i];
      forall j | i < j < |init| ensures KeyText(init[j].0) != t {
        assert init[j] == pairs[j];
      }
      LastWithIsLast(init, t, i);
    }
  }

  /**
   * The string-keyed map an interface-keyed map becomes: every key is
   * replaced by its text; when two keys have the same text the later pair wins.
   */
  function NormalizePairs(pairs: seq<(Key, Raw)>, ghost whole: Raw): (m: map<string, Value>)
    requires forall i :: 0 <= i < |pairs| ==> pairs[i].1 < whole
    ensures forall t :: t in m <==> LastWith(pairs, t).Some?
    ensures forall t :: t in m ==> m[t] == Normalize(LastWith(pairs, t).value)
    decreases whole, 0, |pairs|
  {
    if |pairs| == 0 then map[]
    else
      var init := pairs[..|pairs| - 1];
      var last := pairs[|pairs| - 1];
      NormalizePairs(init, whole)[KeyText(last.0) := Normalize(last.1)]
  }

  /** How fmt's %v prints a value: sequences as `[a b c]`, maps as
      `map[k:v ...]` with the keys in increasing order, nil as `<nil>`. */
  function Render(v: Value): (t: string)
    ensures v.Str? ==> t == v.s
    ensures v.Sequence? ==> |t| >= 2 && t[0] == '[' && t[|t| - 1] == ']'
    ensures v.Mapping? ==> |t| >= 5 && t[..4] == "map[" && t[|t| - 1] == ']'
    decreases v, 2
  {
    match v
    case Null => "<nil>"
    case Str(s) => s
    case Num(n) => IntToDecimal(n)
    case Bool(b) => BoolText(b)
    case Sequence(items) => RenderSequence(items, v)
    case Mapping(entries) => RenderMapping(entries, v)
  }

  /** A sequence: its elements, space-separated, in square brackets. */
  function RenderSequence(items: seq<Value>, ghost whole: Value): (t: string)
    requires whole == Sequence(items)
    ensures |t| >= 2 && t[0] == '[' && t[|t| - 1] == ']'
    decreases whole, 1
  {
    Bracket("[", Join(RenderItems(items, whole), ' '))
  }

  /** A map: its `key:value` pairs in increasing key order, space-separated,
      between `map[` and `]`. */
  function RenderMapping(entries: map<string, Value>, ghost whole: Value): (t: string)
    requires whole == Mapping(entries)
    ensures |t| >= 5 && t[..4] == "map[" && t[|t| - 1] == ']'
    ensures |entries| == 0 ==> t == "map[]"
    decreases whole, 1
  {
    var keys := SortedKeys(entries.Keys);
    Bracket("map[", Join(RenderEntries(entries, keys, whole), ' '))
  }

  /** A two-entry map prints its smaller key first, whichever order the
      entries were inserted in. */
  lemma RenderTwoEntries(a: string, x: Value, b: string, y: Value)
    requires LexLeq(a, b) && a != b
    ensures Render(Mapping(map[a := x, b := y])) ==
      "map[" + a + ":" + Render(x) + " " + b + ":" + Render(y) + "]"
    ensures Render(Mapping(map[b := y, a := x])) == Render(Mapping(map[a := x, b := y]))
  {
    var m := map[a := x, b := y];
    assert map[b := y, a := x] == m;
    RenderPair(m, a, b);
  }

  /** The rendering of a map whose keys are exactly `a` before `b`. */
  lemma RenderPair(m: map<string, Value>, a: string, b: string)
    requires LexLeq(a, b) && a != b && m.Keys == {a, b}
    ensures Render(Mapping(m)) == "map[" + a + ":" + Render(m[a]) + " " + b + ":" + Render(m[b]) + "]"
  {
    var p0 := a + ":" + Render(m[a]);
    var p1 := b + ":" + Render(m[b]);
    PairEntries(m, a, b);
    JoinPair(p0, p1, ' ');
    assert Render(Mapping(m)) == RenderMapping(m, Mapping(m));
    assert RenderMapping(m, Mapping(m)) == Bracket("map[", p0 + [' '] + p1);
    PairText(a, Render(m[a]), b, Render(m[b]));
  }

  /** String concatenation regrouped: the bracketed pair text read left to right. */
  lemma PairText(a: string, x: string, b: string, y: string)
    ensures Bracket("map[", (a + ":" + x) + [' '] + (b + ":" + y)) == "map[" + a + ":" + x + " " + b + ":" + y + "]"
  {
    assert " " == [' '];
  }

  /** ... whose printed entries are `a`'s, then `b`'s. */
  lemma PairEntries(m: map<string, Value>, a: string, b: string)
    requires LexLeq(a, b) && a != b && m.Keys == {a, b}
    ensures RenderEntries(m, SortedKeys(m.Keys), Mapping(m)) == [a + ":" + Render(m[a]), b + ":" + Render(m[b])]
  {
    SortedTwo(a, b);
    var printed := RenderEntries(m, [a, b], Mapping(m));
    assert printed == [a + ":" + Render(m[a]), b + ":" + Render(m[b])];
  }

  /** Two distinct keys sort into a two-element list, the smaller first. */
  lemma SortedTwo(a: string, b: string)
    requires LexLeq(a, b) && a != b
    ensures SortedKeys({a, b}) == [a, b]
  {
    var keys := SortedKeys({a, b});
    assert |{a, b}| == 2;
    assert keys[0] in {a, b} && keys[1] in {a, b} && keys[0] != keys[1];
    if keys[0] != a {
      assert LexLeq(b, a);
      LexLeqAntisymmetric(a, b);
      assert false;
    }
  }

  /** `open`, then `body`, then a closing bracket. */
  function Bracket(open: string, body: string): (t: string)
    ensures |t| == |open| + |body| + 1 && t[..|open|] == open && t[|t| - 1] == ']'
  {
    open + body + "]"
  }

  /** Each element printed with %v, in order. */
  function RenderItems(items: seq<Value>, ghost whole: Value): (r: seq<string>)
    requires forall i :: 0 <= i < |items| ==> items[i] < whole
    ensures |r| == |items|
    ensures forall i :: 0 <= i < |items| ==> r[i] == Render(items[i])
    decreases whole, 0, |items|
  {
    if |items| == 0 then [] else [Render(items[0])] + RenderItems(items[1..], whole)
  }

  /** Each `key:value` pair printed with %v, in the order of `keys`. */
  function RenderEntries(entries: map<string, Value>, keys: seq<string>, ghost whole: Value): (r: seq<string>)
    requires forall i :: 0 <= i < |keys| ==> keys[i] in entries && entries[keys[i]] < whole
    ensures |r| == |keys|
    ensures forall i :: 0 <= i < |keys| ==> r[i] == keys[i] + ":" + Render(entries[keys[i]])
    decreases whole, 0, |keys|
  {
    if |keys| == 0 then []
    else [keys[0] + ":" + Render(entries[keys[0]])] + RenderEntries(entries, keys[1..], whole)
  }

  /** The elements of a sequence of space-free strings can be read back
      from its rendering by splitting the text between the brackets. */
  lemma RenderStringsReadBack(words: seq<string>)
    requires |words| >= 1
    requires forall i :: 0 <= i < |words| ==> ' ' !in words[i]
    ensures var t := Render(Sequence(seq(|words|, i requires 0 <= i < |words| => Str(words[i]))));
      Split(t[1..|t| - 1], ' ') == words
  {
    var items := seq(|words|, i requires 0 <= i < |words| => Str(words[i]));
    assert RenderItems(items, Sequence(items)) == words;
    var t := Render(Sequence(items));
    assert t == RenderSequence(items, Sequence(items));
    assert t == "[" + Join(words, ' ') + "]";
    assert t[1..|t| - 1] == Join(words, ' ');
    SplitJoin(words, ' ');
  }

  /** The decoded input a canonical value could have come from. */
  function Embed(v: Value): Raw
  {
    match v
    case Null => RawNull
    case Str(s) => RawStr(s)
    case Num(n) => RawNum(n)
    case Bool(b) => RawBool(b)
    case Sequence(items) => RawList(seq(|items|, i requires 0 <= i < |items| => Embed(items[i])))
    case Mapping(entries) => RawStringMap(map k | k in entries :: Embed(entries[k]))
  }

  /** Canonical values are fixed points of normalisation. */
  lemma {:induction false} NormalizeEmbed(v: Value)
    ensures Normalize(Embed(v)) == v
    decreases v
  {
    match v
    case Sequence(items) =>
      forall i | 0 <= i < |items| ensures Normalize(Embed(items[i])) == items[i] {
        NormalizeEmbed(items[i]);
      }
    case Mapping(entries) =>
      forall k | k in entries ensures Normalize(Embed(entries[k])) == entries[k] {
        NormalizeEmbed(entries[k]);
      }
    case _ =>
  }

  /** A string-keyed map of canonical values as decoded input. */
  function EmbedMap(m: map<string, Value>): (r: map<string, Raw>)
    ensures r.Keys == m.Keys
  {
    map k | k in m :: Embed(m[k])
  }

  /** A map of canonical values, embedded and normalised again, is unchanged. */
  lemma NormalizeEmbedMap(m: map<string, Value>)
    ensures Normalize(RawStringMap(EmbedMap(m))).entries == m
  {
    var input := EmbedMap(m);
    var n := Normalize(RawStringMap(input)).entries;
    forall k | k in m ensures n[k] == m[k] {
      NormalizeEmbed(m[k]);
    }
  }
}
